=== FILE: README.md ===
# KPI dashboard core in Dafny

This project models the computing core of two Dash applications over a retail
transaction table. The Plotly figures, HTML and CSS are not modelled.

- `exercice1_calcul_kpi.py` computes six KPIs once over the loaded table:
  - amount statistics;
  - revenue and revenue share by category;
  - client recurrence, with the distribution of transactions per client;
  - payment-mode counts;
  - customer lifetime value with the top five clients;
  - the leading category and its share.
- `exercice2_dashoard_interratif.py` does three things:
  - it normalises the decimal comma of the amount column;
  - it defines the global KPI cards (`calculer_kpis`);
  - in its callback `update_dashboard`, it filters the table by store, category, payment mode and date range, then draws every panel from the filtered view.

A transaction is an immutable `Table.Row`:
- Every pandas cell that can be missing (NaN) is an `Option`.
- Amounts are integer cents.
- The timestamp is in seconds; its calendar day is `Day(time) = time / 86400`.

Several pandas aggregations are one generic fold, `Grouping.GroupBy(rows, key, measure)`, with a different measure each:
- `groupby(key)[col].sum()` uses a measure that counts a missing cell as 0;
- `size()` and `value_counts()` use the constant measure 1;
- `agg('count')` uses the measure that is 1 on a present cell.

Rows with a missing key are dropped, as pandas drops them. `GroupBy` has a reference definition:
- `GroupKeys` lists each present key once;
- `SumWhere` sums the measure over the rows carrying a key.

Every aggregate is stated against that reference. Rankings (`value_counts`, `nlargest`, `sort_index`, `median`) sort with one stable insertion sort, `Sorting.SortBy`. `idxmax` needs no sort: it is a single scan for the first maximum, `Seqs.ArgMax`.

Where the scripts raise on an empty input, the model returns `None`:
- `index[0]`/`iloc[0]` on an empty series;
- `idxmax` of nothing;
- the true division `/` of two integer counts when there is no client, which raises `ZeroDivisionError`.

Where pandas yields NaN or inf, the model also returns `None`: the mean of nothing (NaN), and a percentage of a zero float total (inf for a non-zero part, NaN for a zero one).

Modules, one per file:
- `wrappers.dfy`: `Option`.
- `seqs.dfy`: sums, extrema, counting, subsequences.
- `sorting.dfy`: stable sort and permutation facts.
- `stats.dfy`: mean, median, percentages.
- `grouping.dfy`: the group-by fold and its reference.
- `ranking.dfy`: value counts, n-largest, idxmax, mode.
- `table.dfy`: the row, its keys and measures.
- `decimal.dfy`: the amount normalisation.
- `filter.dfy`: the dashboard filter.
- `calcul_kpi.dfy`: the six KPIs of the first script.
- `dashboard.dfy`: the KPI cards and panels of the second script.

## Model

| member | source | states |
|---|---|---|
| `Stats.Mean` | exercice1_calcul_kpi.py:29 | undefined exactly on no value; otherwise the sum over the count, lying between min and max |
| `Stats.MeanTimesCount` | exercice1_calcul_kpi.py:29 | the mean times the number of values gives back their sum |
| `Stats.Median` | exercice1_calcul_kpi.py:32 | the median (middle value, or mean of the two middle values) lies between the minimum and the maximum, at least half of the values are at most it and at least half are at least it |
| `Stats.MiddleSplits` | exercice1_calcul_kpi.py:32 | in a sorted column the middle element has at least half of the values at or below it and at least half at or above it |
| `Seqs.CountIfPermutation` | exercice1_calcul_kpi.py:32 | reordering a column does not change how many of its values satisfy a test |
| `Stats.MedianIgnoresOrder` | exercice1_calcul_kpi.py:32 | two columns holding the same values in any order have the same median |
| `Stats.Describe` | exercice1_calcul_kpi.py:29-32 | undefined exactly on no value; min and max are values bounding every value; min <= median <= max and min <= mean <= max |
| `CalculKpi.AmountStats` | exercice1_calcul_kpi.py:29-32 | computed over present amounts only: undefined exactly when every amount is missing; min and max are present amounts bounding every present amount; the mean is the mean of the present amounts and the median their median, both in [min, max] |
| `CalculKpi.AmountMeanOverPresent` | exercice1_calcul_kpi.py:29 | the mean amount is the sum of present amounts over the number of present amounts; missing amounts count in neither |
| `Grouping.GroupByMatchesReference` | exercice1_calcul_kpi.py:35 | the single-pass group-by yields exactly the present keys, once each in order of first appearance, each holding the measure summed over that key's rows |
| `Grouping.GroupByRollUp` | exercice1_calcul_kpi.py:35-36 | summing the groups picked by any selector equals summing the measure over the rows whose key that selector picks |
| `CalculKpi.CategoryRevenue` | exercice1_calcul_kpi.py:35 | one entry per category present, none repeated, each holding the sum of that category's present amounts |
| `CalculKpi.RevenueTotal` | exercice1_calcul_kpi.py:36 | the total of the per-category revenues is the sum of the amounts of rows with a category, i.e. of all present amounts when no category is missing |
| `CalculKpi.CategoryShares` | exercice1_calcul_kpi.py:37 | undefined exactly on a zero total; one share per category, each its revenue as a percentage of the total, and the shares add up to 100 |
| `CalculKpi.ClientCounts` | exercice1_calcul_kpi.py:40 | one entry per client id, each its number of rows (at least 1); the counts add up to the number of rows with a client id; empty exactly when no row has one |
| `CalculKpi.RecurrenceRate` | exercice1_calcul_kpi.py:41-44 | undefined exactly when there is no client; otherwise the number of clients with more than one transaction as a percentage of the number of clients, in [0, 100]; 0 iff every client has one transaction and 100 iff every client has at least two |
| `CalculKpi.TransactionBuckets` | exercice1_calcul_kpi.py:556-571 | each bucket is the number of clients with exactly one, exactly two, or at least three transactions; together they are the number of clients, the last two the recurrent clients, and the maximum is a client's count no client exceeds |
| `CalculKpi.BucketsPartition` | exercice1_calcul_kpi.py:556-566 | counts of at least one fall into exactly one of the three buckets, and the counts above one into the last two |
| `Ranking.ValueCounts` | exercice1_calcul_kpi.py:47 | non-increasing counts, one entry per present value, each holding that value's number of rows (at least 1), together the number of rows with a value |
| `Ranking.ModeOf` | exercice1_calcul_kpi.py:50 | undefined exactly when no row has a value; otherwise a present value no other value outnumbers |
| `CalculKpi.PaymentShares` | exercice1_calcul_kpi.py:47-49 | each mode's count as a percentage of all rows, each in (0, 100]; together at most 100, and exactly 100 iff every row has a payment mode |
| `CalculKpi.MostUsedPayment` | exercice1_calcul_kpi.py:50 | undefined exactly when no row has a payment mode; otherwise a present mode whose count is at least every mode's count |
| `CalculKpi.ClientValue` | exercice1_calcul_kpi.py:53 | per client, not per transaction: one entry per client id, each the sum of that client's present amounts, as many entries as clients |
| `CalculKpi.ClientValueStats` | exercice1_calcul_kpi.py:54-57 | undefined exactly when there is no client; min and max are client values bounding every client value; the mean is the sum of client values over the number of clients (not of transactions) and the median is theirs, both in [min, max] |
| `Ranking.NLargest` | exercice1_calcul_kpi.py:58 | min(n, size) entries, a sub-multiset of the input, non-increasing, with distinct keys when the input's are distinct, and no entry left out exceeds the smallest entry kept |
| `CalculKpi.TopClients` | exercice1_calcul_kpi.py:58 | min(5, clients) distinct real clients with their values, non-increasing, and every client left out has a value at most the smallest listed |
| `Ranking.IdxMax` | exercice1_calcul_kpi.py:61-62 | undefined exactly on an empty series; otherwise an entry of maximal value, the first such |
| `CalculKpi.TopCategory` | exercice1_calcul_kpi.py:61-62 | undefined exactly when no row has a category; otherwise a present category with its revenue, and no category's revenue exceeds it |
| `CalculKpi.TopCategoryShare` | exercice1_calcul_kpi.py:63 | defined exactly when there is a leading category and a non-zero total; then it is the leading category's revenue as a percentage of the total revenue; with no negative amount it lies in [0, 100] |
| `CalculKpi.TopWithinNonNegative` | exercice1_calcul_kpi.py:61-63 | with no negative amount the leading category's revenue lies between 0 and the total revenue |
| `Decimal.NormalizeDecimal` | exercice2_dashoard_interratif.py:21 | same length, every comma becomes a point and every other character stays in place, and no comma remains |
| `Decimal.NormalizeIdempotent` | exercice2_dashoard_interratif.py:21 | normalising twice is normalising once |
| `Decimal.NormalizeFixedPoint` | exercice2_dashoard_interratif.py:21 | the text is left unchanged exactly when it holds no comma |
| `Decimal.CoerceAmount` | exercice2_dashoard_interratif.py:21 | a cell without a comma is parsed as it stands |
| `Decimal.SeparatorInsensitive` | exercice2_dashoard_interratif.py:21 | two cells differing only in comma versus point load as the same amount, whatever the parser |
| `Table.PresentTotals` | exercice2_dashoard_interratif.py:36-38 | summing a column's present cells equals summing it with missing cells as 0, and counting them equals summing the presence indicator |
| `Dashboard.EmptyViewKpis` | exercice2_dashoard_interratif.py:33-41 | on an empty view the KPI cards show a zero total, no transaction and no means |
| `Dashboard.GlobalKpis` | exercice2_dashoard_interratif.py:33-41 | the transaction count counts every row; the total sums present amounts; each mean is undefined exactly when no cell is present and otherwise the present sum over the present count |
| `Filter.SelectorStepsMatch` | exercice2_dashoard_interratif.py:490-495 | satisfying the restrictions of the three selector `if`s is exactly matching every non-`ALL` selector |
| `Filter.StepsMatch` | exercice2_dashoard_interratif.py:490-500 | satisfying every restriction the four `if`s activate is exactly matching the filter's reference predicate |
| `Filter.Keep` | exercice2_dashoard_interratif.py:491 | boolean indexing keeps an order-preserving subsequence holding each satisfying row as often as the input does, and no other row |
| `Filter.Chain` | exercice2_dashoard_interratif.py:488-500 | applying the restrictions one after another keeps an order-preserving subsequence holding exactly the rows that satisfy all of them |
| `Filter.ApplyFilter` | exercice2_dashoard_interratif.py:488-500 | the view is an order-preserving subsequence of the table; every row in it matches the filter; every matching row occurs in it as often as in the table |
| `Filter.InView` | exercice2_dashoard_interratif.py:488-500 | a row is in the view exactly when it is in the table and matches the filter |
| `Filter.NoPaymentInView` | exercice2_dashoard_interratif.py:488-500 | no row of the view has a payment mode exactly when no matching row of the table has one |
| `Filter.FilterComplete` | exercice2_dashoard_interratif.py:490-500 | every table row that matches the filter is in the view |
| `Filter.KeepAll` | exercice2_dashoard_interratif.py:496-500 | a restriction every row satisfies leaves the rows unchanged |
| `Filter.NoFilterIdentity` | exercice2_dashoard_interratif.py:488-496 | all selectors `ALL` and no complete date range: the view is the table |
| `Filter.FullRangeIdentity` | exercice2_dashoard_interratif.py:488-500 | all selectors `ALL` and a date range covering every row: the view is the table |
| `Filter.AbsentValueEmpty` | exercice2_dashoard_interratif.py:490-495 | a selector naming a value no row carries gives an empty view |
| `Filter.HalfOpenRangeIgnored` | exercice2_dashoard_interratif.py:496 | with only one date given, the view holds exactly the rows matching the three selectors, whatever their dates |
| `Filter.EndDayDroppedAsWritten` | exercice2_dashoard_interratif.py:496-500 | the date test as written rejects a transaction one second into the last picked day, which the picked range includes |
| `Filter.WholeDaysKept` | exercice2_dashoard_interratif.py:496-500 | with both dates given, every transaction matching the selectors from midnight of the first day to the last second of the last day is in the view |
| `Filter.InRangeAsWritten` | exercice2_dashoard_interratif.py:498-499 | the date test as written never keeps a transaction outside the picked days, and of the last picked day keeps only its first instant |
| `Filter.StepsMatchAsWritten` | exercice2_dashoard_interratif.py:490-500 | satisfying every restriction as written is exactly matching the selectors and, with both dates given, the timestamp test as written |
| `Filter.ApplyFilterAsWritten` | exercice2_dashoard_interratif.py:488-500 | the view as written is an order-preserving subsequence of the table holding exactly the rows matching the filter as written, each as often as in the table |
| `Filter.NoPaymentInViewAsWritten` | exercice2_dashoard_interratif.py:488-500 | no row of the view as written has a payment mode exactly when no table row matching the filter as written has one |
| `Filter.ApplyFilterAgreesAtMidnight` | exercice2_dashoard_interratif.py:496-500 | on a table whose timestamps carry no time of day, the view as written and the day-based view are the same sequence |
| `Filter.EndDayRowDroppedAsWritten` | exercice2_dashoard_interratif.py:496-500 | in a whole table, a transaction matching the selectors one second into the last picked day is missing from the view as written and present in the day-based view |
| `Filter.NoSelectedRowEmpty` | exercice2_dashoard_interratif.py:488-500 | selectors no row satisfies together empty both the day-based view and the view as written |
| `Filter.ViewSize` | exercice2_dashoard_interratif.py:488-500 | the view is no longer than the table, and not empty when a table row matches |
| `Filter.DayTestAgreesAtMidnight` | exercice2_dashoard_interratif.py:496-500 | on midnight timestamps the written test and the day-based test agree |
| `Dashboard.DailySales` | exercice2_dashoard_interratif.py:537 | strictly ascending days, one per day present, each the sum of that day's present amounts; together the total sales |
| `Dashboard.StoreSales` | exercice2_dashoard_interratif.py:562 | one entry per store present, each the sum of its present amounts; they add up to the total sales when no store is missing |
| `Dashboard.GroupMean` | exercice2_dashoard_interratif.py:572 | per group present, the mean is undefined exactly when the group has no present cell, and otherwise its present sum over its present count |
| `Dashboard.StoreMeans` | exercice2_dashoard_interratif.py:572 | per store present, the mean amount is undefined exactly when all its amounts are missing, and otherwise the store's sum over its count of present amounts |
| `Dashboard.StoreStats` | exercice2_dashoard_interratif.py:582-586 | per store: its sales, its count of present amounts only, and a mean equal to sales over count; the columns add up to the keyed totals |
| `Dashboard.StoreStatsTotals` | exercice2_dashoard_interratif.py:582-585 | with no store missing, the sales column adds up to the total sales and the count column to the number of present amounts |
| `Dashboard.CategoryQuantities` | exercice2_dashoard_interratif.py:607 | one entry per category present, each the sum of its present quantities; they add up to all quantities when no category is missing |
| `Dashboard.StoreCategorySales` | exercice2_dashoard_interratif.py:617 | one entry per (store, category) pair present, each the sum of that pair's present amounts |
| `Dashboard.StoreCategoryRollUp` | exercice2_dashoard_interratif.py:617 | for every store, its categories' sales in the store-by-category breakdown add up to its sales in the store breakdown |
| `Dashboard.PaymentLeader` | exercice2_dashoard_interratif.py:630-642 | undefined exactly when no row has a payment mode; otherwise a mode no mode outnumbers, with its count as a percentage of all counted modes, in (0, 100] |
| `Dashboard.GroupMeanBetween` | exercice2_dashoard_interratif.py:656-667 | group means of cells lying in [lo, hi] lie in [lo, hi] |
| `Dashboard.SatisfactionByStore` | exercice2_dashoard_interratif.py:656 | one mean per store, undefined exactly when the store has no score, otherwise the store's score sum over its number of scores; with scores on the 1..5 scale every mean lies in [1, 5] |
| `Dashboard.SatisfactionByCategory` | exercice2_dashoard_interratif.py:667 | one mean per category, undefined exactly when the category has no score, otherwise the category's score sum over its number of scores; with scores on the 1..5 scale every mean lies in [1, 5] |
| `Dashboard.SatisfactionDistribution` | exercice2_dashoard_interratif.py:678-679 | strictly ascending scores, one per score present, each with its number of rows (at least 1), together the number of rows with a score |
| `Dashboard.SatisfactionShares` | exercice2_dashoard_interratif.py:680-681 | each score's count as a percentage of the rows with a score, each in (0, 100], together 100 |
| `Dashboard.Summarize` | exercice2_dashoard_interratif.py:503-681 | the panels drawn from one view agree: the daily sales add up to the total-sales card, as do the store sales when no store is missing; the transaction card counts the view; the payment card is missing exactly when no row has a payment mode; the `Pourcentage` column has one entry per score row of the satisfaction table |
| `Dashboard.UpdateDashboardAsWritten` | exercice2_dashoard_interratif.py:486-642 | the callback, filtering with the date test as written, fails (`iloc[0]` on no payment mode) exactly when no row matching the filter as written has a payment mode; otherwise it shows the panels of the view as written, which then have a payment leader |
| `Dashboard.UpdateDashboard` | exercice2_dashoard_interratif.py:486-503 | the panels are drawn from the filtered view, which never counts more transactions than the table and counts at least one when any row matches; there is no payment leader exactly when no matching row has a payment mode |
| `Dashboard.AsWrittenAgreesAtMidnight` | exercice2_dashoard_interratif.py:486-642 | on a table whose timestamps carry no time of day, the callback as written fails exactly when the corrected dashboard has no payment leader, and otherwise shows the same panels |
| `Dashboard.EndDayOnlyRowFails` | exercice2_dashoard_interratif.py:486-642 | a table whose one transaction, with a payment mode, lies one second into the last picked day: the callback as written fails, while the corrected dashboard counts it and shows a payment leader |
| `Dashboard.NoSelectedRowDashboard` | exercice2_dashoard_interratif.py:486-642 | selectors no row satisfies together (a store and a category with no transaction in common): the callback as written fails, while the corrected dashboard shows zero totals, no means and no payment leader |
| `Dashboard.UnfilteredDashboard` | exercice2_dashoard_interratif.py:488-496 | filtering with every selector `ALL` and no complete date range gives the dashboard of the whole table |
| `Dashboard.AbsentValueDashboard` | exercice2_dashoard_interratif.py:490-495 | a selector naming an absent value makes the callback as written fail, and gives the corrected dashboard zero totals, no means and no payment leader |

## Left out

- Presentation: the Dash layout, Plotly figures, CSS, the `index_string` page and all styling. Server start-up, `print` logging and the callback wiring are left out too.
- Loading: `pd.read_excel` is not modelled; the table is given as a sequence of rows.
- Parsing: `pd.to_numeric` and `pd.to_datetime` are library parsers. `Decimal.CoerceAmount` takes the numeric parser as a parameter, and timestamps arrive already parsed as integer seconds.
- Time zones: none are modelled.
- Floating point: amounts are integer cents and means and percentages are exact `real`s. The `.round(2)` calls and the `:.2f`/`:.1f` formatting happen at presentation and are left out.
- Group order:
  - pandas sorts group keys; the model lists groups in order of first appearance;
  - `Dashboard.DailySales` and `Dashboard.SatisfactionDistribution` are the exceptions, since their order is displayed: they are sorted by key;
  - every other contract is stated per key and does not depend on the order.
- Ties: the model breaks ties by first appearance, pandas by position in its sorted group index.
  - `groupby` sorts its keys, so `clv_par_client.nlargest(5)` (default `keep='first'`) keeps tied clients in ascending client-id order, and `ca_par_categorie.idxmax()` returns the first maximal category in sorted order.
  - The model's groups are in order of first appearance, and `Ranking.NLargest` and `Ranking.IdxMax` keep the first-appearing of equal entries; `Ranking.IdxMax` promises the first maximum of the series it is given.
  - The order `value_counts` gives to equal counts is left to the library.
- CalculKpi.TopClients: among clients tied on value at the fifth place, the model may list a different client from the script; the contract promises only that no client left out exceeds one listed.
- CalculKpi.TopCategory: with several categories of equal maximal revenue, the model may name a different category from the script (rows B:100, A:100 give B, the script A); the contract promises only maximality.
- One-sided date range: the script applies no date restriction unless both dates are given (`Filter.HalfOpenRangeIgnored`). A reading in which each missing date lifts only its own side of the range is not what the code does, and the model follows the code.
- Empty filtered view: `Dashboard.PaymentLeader` returns `None` where the script's `iloc[0]` raises `IndexError`. The callback as written is `Dashboard.UpdateDashboardAsWritten`, which fails there (see Findings); the corrected `Dashboard.UpdateDashboard` shows no payment card. The model does not invent a neutral rendering of that card.
- Division by zero: pandas gives `inf`/NaN for a float division by a zero revenue total. `CalculKpi.CategoryShares` and `CalculKpi.TopCategoryShare` return `None` instead.
- Dashboard.StoreCategoryRollUp: requires that every row with a store also has a category. pandas drops rows with a missing category from the two-key breakdown, so without that condition the roll-up is only a lower bound for non-negative amounts.
- CalculKpi.TopCategoryShare: the [0, 100] bound is stated only for tables without negative amounts; the script has no such guard, and a negative amount can push the share outside the range.
- Filter.ApplyFilter: uses the calendar-day date test, as does the corrected `Dashboard.UpdateDashboard`. The timestamp-against-midnight test as written is `Filter.InRangeAsWritten`, used by `Filter.ApplyFilterAsWritten` and `Dashboard.UpdateDashboardAsWritten` (see Findings).
- Filter.ApplyFilterAsWritten: the date picker starts out with the data's earliest and latest timestamps (exercice2_dashoard_interratif.py:347-348), not with day strings; `Filter.FilterSpec` holds only picked days, so that first call is not represented. On it the written test compares against the latest timestamp itself and keeps every row.
- Missing timestamps: `Table.Row` carries its timestamp as a plain integer, so a timestamp is assumed always present. An empty date cell would become `NaT` and `groupby('Date')` would drop that row, so `Dashboard.DailySales` adding up to the total sales holds for tables without missing dates.
- Dashboard.UpdateDashboard: its own contract is about the view's transaction count. The per-panel facts are the contracts of the panel functions it assembles, and the filter facts are those of `Filter.ApplyFilter`.

## Findings

| source | as written | input that shows it | evidently intended | confidence | as-written member | corrected member |
|---|---|---|---|---|---|---|
| exercice2_dashoard_interratif.py:496-500 | `Date_Transaction <= end_date` compares a full timestamp with the end date's midnight | after the user picks an end date, a transaction one second after midnight of that day (`time = last * 86400 + 1`) is dropped | the last picked day is included as a whole, as the inclusive date range promises | medium: whether pandas compares against midnight depends on how the picker's string is parsed; not executed | `Filter.EndDayRowDroppedAsWritten` | `Filter.WholeDaysKept` |
| exercice2_dashoard_interratif.py:630-642 | `modes_paiement.iloc[0]` reads the first payment-mode count without checking that there is one | picking a store and a category that have no transaction in common (both offered by the dropdowns), or a date range with no transaction, leaves no row with a payment mode, so the callback raises `IndexError` and no panel updates | a view without payment modes still renders, with zero KPIs and no payment leader, as the KPI cards of `calculer_kpis` already do | high that `iloc[0]` of an empty frame raises; not executed | `Dashboard.UpdateDashboardAsWritten` | `Dashboard.UpdateDashboard` |

The corrected filter, `Filter.ApplyFilter`, compares calendar days (`Filter.Holds` uses `Day(time)`), and `Filter.WholeDaysKept` proves it keeps the whole of every picked day. `Filter.DayTestAgreesAtMidnight` proves the two tests agree whenever timestamps carry no time of day. On the first render the picker still holds the data's own earliest and latest timestamps, so the drop only happens once the user has picked an end date.

`Filter.EndDayDroppedAsWritten` states the first finding on a single timestamp, `Filter.EndDayRowDroppedAsWritten` on a whole table, and `Dashboard.EndDayOnlyRowFails` shows its effect on the callback: the dropped row can leave the view without a payment mode. `Filter.ApplyFilterAgreesAtMidnight` proves the two filters give the same view when timestamps carry no time of day.

`Dashboard.NoSelectedRowDashboard` exhibits the second finding for a store and category pair with no transaction in common: the callback as written fails, while the corrected `Dashboard.UpdateDashboard` shows zero totals, no means and no payment leader. `Dashboard.AbsentValueDashboard` states the same for a selector value no row carries.

=== FILE: calcul_kpi.dfy ===
/** The six KPIs of the first script, computed once over the whole loaded
    table: transaction value statistics, revenue by category, client
    recurrence, payment modes, customer lifetime value, and the leading
    category. Where the script would raise on an empty input (a division by
    zero, `index[0]` on an empty series) the model returns `None`. */
module CalculKpi {
  import opened Wrappers
  import opened Seqs
  import opened Sorting
  import opened Stats
  import opened Grouping
  import opened Ranking
  import opened Table

  // KPI 1: transaction value.

  /** Mean, minimum, maximum and median of the present amounts; `None` when
      every amount is missing. The mean divides by the number of present
      amounts, not by the number of rows. */
  function AmountStats(rows: seq<Row>): (s: Option<Summary>)
    ensures s.None? <==> forall i :: 0 <= i < |rows| ==> rows[i].amount.None?
    ensures s.Some? ==> forall i :: 0 <= i < |rows| && rows[i].amount.Some? ==>
      s.value.min <= rows[i].amount.value <= s.value.max
    ensures s.Some? ==> s.value.min in Present(rows, AmountCell) && s.value.max in Present(rows, AmountCell)
    ensures s.Some? ==> Present(rows, AmountCell) != [] && s.value.median == Median(Present(rows, AmountCell))
    ensures s.Some? ==> Mean(Present(rows, AmountCell)) == Some(s.value.mean)
    ensures s.Some? ==> s.value.min as real <= s.value.median <= s.value.max as real
    ensures s.Some? ==> s.value.min as real <= s.value.mean <= s.value.max as real
  {
    var xs := Present(rows, AmountCell);
    var s := Describe(xs);
    assert forall i :: 0 <= i < |rows| && rows[i].amount.Some? ==> rows[i].amount.value in xs by {
      forall i | 0 <= i < |rows| && rows[i].amount.Some?
        ensures rows[i].amount.value in xs
      {
        PresentMember(rows, AmountCell, i);
      }
    }
    s
  }

  /** The mean is the sum of the present amounts over their number: rows
      with a missing amount count in neither. */
  lemma {:induction false} AmountMeanOverPresent(rows: seq<Row>)
    ensures AmountStats(rows).Some? <==> Total(rows, HasAmount) > 0
    ensures AmountStats(rows).Some? ==>
      AmountStats(rows).value.mean == Total(rows, AmountOr0) as real / Total(rows, HasAmount) as real
  {
    var xs := Present(rows, AmountCell);
    assert AmountStats(rows) == Describe(xs);
    PresentTotals(rows, AmountCell, AmountOr0, HasAmount);
  }

  // KPI 2: revenue by category.

  /** `groupby('Categorie_Produit')['Montant_Transaction'].sum()`: one entry
      per category present in the table, holding the sum of that
      category's present amounts. */
  function CategoryRevenue(rows: seq<Row>): (ca: seq<(string, int)>)
    ensures Distinct(Keys(ca))
    ensures forall c :: c in Keys(ca) <==> HasKey(rows, CategoryKey, c)
    ensures forall i :: 0 <= i < |ca| ==> ca[i].1 == SumWhere(rows, CategoryKey, AmountOr0, ca[i].0)
  {
    GroupByMatchesReference(rows, CategoryKey, AmountOr0);
    GroupByKeys(rows, CategoryKey, AmountOr0);
    GroupBy(rows, CategoryKey, AmountOr0)
  }

  /** `ca_total`, the sum of the per-category revenues: the present amounts
      of the rows that have a category, which is every present amount when
      no category is missing. */
  function RevenueTotal(rows: seq<Row>): (total: int)
    ensures total == SumKeyed(rows, CategoryKey, AmountOr0, AnyKey)
    ensures (forall i :: 0 <= i < |rows| ==> rows[i].category.Some?) ==>
      total == Sum(Present(rows, AmountCell))
  {
    GroupByTotal(rows, CategoryKey, AmountOr0);
    PresentTotals(rows, AmountCell, AmountOr0, HasAmount);
    KeyedTotal(rows, CategoryKey, AmountOr0);
    Sum(Values(CategoryRevenue(rows)))
  }

  /** Each category's revenue as a percentage of `ca_total`; `None` when
      the total is zero. The shares add up to 100. */
  function CategoryShares(rows: seq<Row>): (p: Option<seq<(string, real)>>)
    ensures p.None? <==> RevenueTotal(rows) == 0
    ensures p.Some? ==> Keys(p.value) == Keys(CategoryRevenue(rows))
    ensures p.Some? ==> forall i :: 0 <= i < |p.value| ==>
      RevenueTotal(rows) != 0 &&
      p.value[i].1 == Percent(SumWhere(rows, CategoryKey, AmountOr0, p.value[i].0), RevenueTotal(rows))
    ensures p.Some? ==> SumReal(Values(p.value)) == 100.0
  {
    var ca := CategoryRevenue(rows);
    var total := RevenueTotal(rows);
    if total == 0 then None
    else
      SharesTotal(ca, total);
      PercentSelf(total);
      var p := Shares(ca, total);
      assert forall i :: 0 <= i < |p| ==> p[i].0 == ca[i].0;
      Some(p)
  }

  // KPI 3: client recurrence.

  /** `groupby('ID_Client').size()`: one entry per client id, holding its
      number of transactions. The counts add up to the number of rows with
      a client id. */
  function ClientCounts(rows: seq<Row>): (tc: seq<(string, int)>)
    ensures Distinct(Keys(tc))
    ensures forall k :: k in Keys(tc) <==> HasKey(rows, ClientKey, k)
    ensures forall i :: 0 <= i < |tc| ==> tc[i].1 == SumWhere(rows, ClientKey, Unit, tc[i].0)
    ensures forall i :: 0 <= i < |tc| ==> 1 <= tc[i].1
    ensures Sum(Values(tc)) == SumKeyed(rows, ClientKey, Unit, AnyKey)
    ensures tc == [] <==> forall i :: 0 <= i < |rows| ==> rows[i].client.None?
  {
    GroupByMatchesReference(rows, ClientKey, Unit);
    GroupByKeys(rows, ClientKey, Unit);
    GroupByLowerBound(rows, ClientKey, Unit, 1);
    GroupByTotal(rows, ClientKey, Unit);
    NoGroupsIffNoKey(rows, ClientKey, Unit);
    GroupBy(rows, ClientKey, Unit)
  }

  /** A client with more than one transaction. */
  predicate Recurrent(count: int)
  {
    count > 1
  }

  /** `taux_recurrence`: recurrent clients as a percentage of all clients;
      `None` where the script divides by zero clients. */
  function RecurrenceRate(rows: seq<Row>): (rate: Option<real>)
    ensures rate.None? <==> forall i :: 0 <= i < |rows| ==> rows[i].client.None?
    ensures rate.Some? ==> (
      && |ClientCounts(rows)| > 0
      && rate.value == Percent(CountIf(Values(ClientCounts(rows)), Recurrent), |ClientCounts(rows)|))
    ensures rate.Some? ==> 0.0 <= rate.value <= 100.0
    ensures rate.Some? ==>
      (rate.value == 0.0 <==> forall i :: 0 <= i < |ClientCounts(rows)| ==> ClientCounts(rows)[i].1 == 1)
    ensures rate.Some? ==>
      (rate.value == 100.0 <==> forall i :: 0 <= i < |ClientCounts(rows)| ==> ClientCounts(rows)[i].1 >= 2)
  {
    var tc := ClientCounts(rows);
    if tc == [] then None
    else
      var counts := Values(tc);
      var recurrent := CountIf(counts, Recurrent);
      PercentBounds(recurrent, |tc|);
      assert forall i :: 0 <= i < |tc| ==> counts[i] == tc[i].1;
      Some(Percent(recurrent, |tc|))
  }

  predicate Once(count: int) { count == 1 }
  predicate Twice(count: int) { count == 2 }
  predicate ThreeOrMore(count: int) { count >= 3 }
  predicate AtLeastOnce(count: int) { count >= 1 }

  /** The distribution panel: clients with one, two, and three or more
      transactions, and the largest count (`None` for no client). */
  datatype Buckets = Buckets(once: nat, twice: nat, threeOrMore: nat, most: Option<int>)

  /** The three buckets partition the clients; the recurrent clients are
      the last two; `most` is a client's count that no client exceeds. */
  function TransactionBuckets(rows: seq<Row>): (b: Buckets)
    ensures b.once == CountIf(Values(ClientCounts(rows)), Once)
    ensures b.twice == CountIf(Values(ClientCounts(rows)), Twice)
    ensures b.threeOrMore == CountIf(Values(ClientCounts(rows)), ThreeOrMore)
    ensures b.once + b.twice + b.threeOrMore == |ClientCounts(rows)|
    ensures b.twice + b.threeOrMore == CountIf(Values(ClientCounts(rows)), Recurrent)
    ensures b.most.None? <==> ClientCounts(rows) == []
    ensures b.most.Some? ==> b.most.value in Values(ClientCounts(rows))
    ensures b.most.Some? ==> forall i :: 0 <= i < |ClientCounts(rows)| ==> ClientCounts(rows)[i].1 <= b.most.value
  {
    var tc := ClientCounts(rows);
    var counts := Values(tc);
    assert forall i :: 0 <= i < |counts| ==> counts[i] == tc[i].1;
    BucketsPartition(counts);
    Buckets(CountIf(counts, Once), CountIf(counts, Twice), CountIf(counts, ThreeOrMore),
            if counts == [] then None else Some(Max(counts)))
  }

  /** Counts of at least one fall into exactly one of the three buckets,
      and the recurrent ones into the last two. */
  lemma BucketsPartition(counts: seq<int>)
    requires forall i :: 0 <= i < |counts| ==> counts[i] >= 1
    ensures CountIf(counts, Once) + CountIf(counts, Twice) + CountIf(counts, ThreeOrMore) == |counts|
    ensures CountIf(counts, Twice) + CountIf(counts, ThreeOrMore) == CountIf(counts, Recurrent)
  {
    CountIfDisjointUnion(counts, Twice, ThreeOrMore, Recurrent);
    CountIfDisjointUnion(counts, Once, Recurrent, AtLeastOnce);
  }

  // KPI 4: payment modes.

  /** `value_counts() / len(df) * 100`: each payment mode's share of all
      transactions, rows without a payment mode included in the whole; so
      the shares add up to at most 100, and to exactly 100 when every row
      has a mode. */
  function PaymentShares(rows: seq<Row>): (p: seq<(string, real)>)
    ensures Keys(p) == Keys(ValueCounts(rows, PaymentKey))
    ensures forall i :: 0 <= i < |p| ==>
      rows != [] && p[i].1 == Percent(SumWhere(rows, PaymentKey, Unit, p[i].0), |rows|)
    ensures forall i :: 0 <= i < |p| ==> 0.0 < p[i].1 <= 100.0
    ensures SumReal(Values(p)) <= 100.0
    ensures rows != [] ==>
      (SumReal(Values(p)) == 100.0 <==> forall i :: 0 <= i < |rows| ==> rows[i].payment.Some?)
  {
    var modes := ValueCounts(rows, PaymentKey);
    KeyedCount(rows, PaymentKey);
    if rows == [] then
      assert modes == [] by { NoValuesIffNoKey(rows, PaymentKey); }
      []
    else
      var whole := |rows|;
      SharesTotal(modes, whole);
      PercentBounds(Sum(Values(modes)), whole);
      assert forall i :: 0 <= i < |modes| ==> modes[i].1 <= whole by {
        forall i | 0 <= i < |modes|
          ensures modes[i].1 <= whole
        {
          assert Values(modes)[i] == modes[i].1;
          ElementAtMostSum(Values(modes), i);
        }
      }
      ShareBounds(modes, whole);
      var p := Shares(modes, whole);
      assert forall i :: 0 <= i < |p| ==> p[i].0 == modes[i].0;
      p
  }

  /** `mode_plus_utilise`: the payment mode no other mode outnumbers;
      `None` where `index[0]` raises because no row has a payment mode. */
  function MostUsedPayment(rows: seq<Row>): (m: Option<string>)
    ensures m.None? <==> forall i :: 0 <= i < |rows| ==> rows[i].payment.None?
    ensures m.Some? ==> HasKey(rows, PaymentKey, m.value)
    ensures m.Some? ==> forall k :: SumWhere(rows, PaymentKey, Unit, k) <= SumWhere(rows, PaymentKey, Unit, m.value)
  {
    ModeOf(rows, PaymentKey)
  }

  // KPI 5: customer lifetime value.

  /** `groupby('ID_Client')['Montant_Transaction'].sum()`: per client, not
      per transaction, the sum of that client's present amounts. */
  function ClientValue(rows: seq<Row>): (clv: seq<(string, int)>)
    ensures Distinct(Keys(clv))
    ensures forall k :: k in Keys(clv) <==> HasKey(rows, ClientKey, k)
    ensures forall i :: 0 <= i < |clv| ==> clv[i].1 == SumWhere(rows, ClientKey, AmountOr0, clv[i].0)
    ensures |clv| == |ClientCounts(rows)|
  {
    GroupByMatchesReference(rows, ClientKey, AmountOr0);
    GroupByKeys(rows, ClientKey, AmountOr0);
    GroupByMatchesReference(rows, ClientKey, Unit);
    assert |Keys(GroupBy(rows, ClientKey, AmountOr0))| == |Keys(ClientCounts(rows))|;
    GroupBy(rows, ClientKey, AmountOr0)
  }

  /** Mean, minimum, maximum and median of the per-client values; `None`
      when there is no client. */
  function ClientValueStats(rows: seq<Row>): (s: Option<Summary>)
    ensures s.None? <==> forall i :: 0 <= i < |rows| ==> rows[i].client.None?
    ensures s.Some? ==> forall i :: 0 <= i < |ClientValue(rows)| ==>
      s.value.min <= ClientValue(rows)[i].1 <= s.value.max
    ensures s.Some? ==> s.value.min in Values(ClientValue(rows)) && s.value.max in Values(ClientValue(rows))
    ensures s.Some? ==> (
      && |ClientValue(rows)| > 0
      && s.value.mean == Sum(Values(ClientValue(rows))) as real / |ClientValue(rows)| as real)
    ensures s.Some? ==> Values(ClientValue(rows)) != [] && s.value.median == Median(Values(ClientValue(rows)))
    ensures s.Some? ==> s.value.min as real <= s.value.median <= s.value.max as real
    ensures s.Some? ==> s.value.min as real <= s.value.mean <= s.value.max as real
  {
    var clv := ClientValue(rows);
    assert |clv| == |ClientCounts(rows)|;
    assert forall i :: 0 <= i < |clv| ==> Values(clv)[i] == clv[i].1;
    var s := Describe(Values(clv));
    assert s.Some? ==> s.value.mean == Sum(Values(clv)) as real / |clv| as real by {
      if s.Some? {
        MeanIsRatio(Values(clv));
      }
    }
    s
  }

  /** `nlargest(5)`: the five clients of largest value (all of them when
      there are fewer), largest first; every other client's value is at
      most the smallest listed. */
  function TopClients(rows: seq<Row>): (top: seq<(string, int)>)
    ensures |top| == if 5 < |ClientValue(rows)| then 5 else |ClientValue(rows)|
    ensures Distinct(Keys(top))
    ensures SortedBy(top, ByValueDesc)
    ensures forall i :: 0 <= i < |top| ==>
      HasKey(rows, ClientKey, top[i].0) && top[i].1 == SumWhere(rows, ClientKey, AmountOr0, top[i].0)
    ensures forall i :: 0 <= i < |ClientValue(rows)| && top != [] && ClientValue(rows)[i].0 !in Keys(top) ==>
      ClientValue(rows)[i].1 <= top[|top| - 1].1
  {
    var clv := ClientValue(rows);
    var top := NLargest(clv, 5);
    SubMultisetEntries(top, clv);
    top
  }

  // KPI 6: leading category.

  /** `idxmax()` and `max()` of the category revenues: a category whose
      revenue no category exceeds; `None` when no row has a category. */
  function TopCategory(rows: seq<Row>): (top: Option<(string, int)>)
    ensures top.None? <==> forall i :: 0 <= i < |rows| ==> rows[i].category.None?
    ensures top.Some? ==> HasKey(rows, CategoryKey, top.value.0)
    ensures top.Some? ==> top.value.1 == SumWhere(rows, CategoryKey, AmountOr0, top.value.0)
    ensures top.Some? ==> forall c :: HasKey(rows, CategoryKey, c) ==>
      SumWhere(rows, CategoryKey, AmountOr0, c) <= top.value.1
  {
    var ca := CategoryRevenue(rows);
    NoGroupsIffNoKey(rows, CategoryKey, AmountOr0);
    var top := IdxMax(ca);
    if top.Some? then
      assert forall c :: HasKey(rows, CategoryKey, c) ==> SumWhere(rows, CategoryKey, AmountOr0, c) <= top.value.1 by {
        forall c | HasKey(rows, CategoryKey, c)
          ensures SumWhere(rows, CategoryKey, AmountOr0, c) <= top.value.1
        {
          var j :| 0 <= j < |ca| && Keys(ca)[j] == c;
        }
      }
      var j :| 0 <= j < |ca| && ca[j] == top.value;
      assert Keys(ca)[j] == top.value.0;
      top
    else top
  }

  /** `part_ca_top`: the leading category's revenue as a percentage of
      `ca_total`; `None` when there is no category or the total is zero.
      With no negative amount the share lies in [0, 100]. */
  function TopCategoryShare(rows: seq<Row>): (share: Option<real>)
    ensures share.Some? <==> TopCategory(rows).Some? && RevenueTotal(rows) != 0
    ensures share.Some? ==> (
      && TopCategory(rows).Some? && RevenueTotal(rows) != 0
      && share.value == Percent(TopCategory(rows).value.1, RevenueTotal(rows)))
    ensures (forall i :: 0 <= i < |rows| ==> AmountOr0(rows[i]) >= 0) && share.Some? ==>
      0.0 <= share.value <= 100.0
  {
    var top := TopCategory(rows);
    var total := RevenueTotal(rows);
    if top.None? || total == 0 then None
    else
      TopWithinTotal(rows);
      assert (forall i :: 0 <= i < |rows| ==> AmountOr0(rows[i]) >= 0) ==>
        0.0 <= Percent(top.value.1, total) <= 100.0 by {
        if forall i :: 0 <= i < |rows| ==> AmountOr0(rows[i]) >= 0 {
          PercentBounds(top.value.1, total);
        }
      }
      Some(Percent(top.value.1, total))
  }

  /** With no negative amount, the leading revenue lies between 0 and the
      total. */
  lemma TopWithinTotal(rows: seq<Row>)
    requires TopCategory(rows).Some?
    ensures (forall i :: 0 <= i < |rows| ==> AmountOr0(rows[i]) >= 0) ==>
      0 <= TopCategory(rows).value.1 <= RevenueTotal(rows)
  {
    if forall i :: 0 <= i < |rows| ==> AmountOr0(rows[i]) >= 0 {
      TopWithinNonNegative(rows);
    }
  }

  lemma TopWithinNonNegative(rows: seq<Row>)
    requires forall i :: 0 <= i < |rows| ==> AmountOr0(rows[i]) >= 0
    requires TopCategory(rows).Some?
    ensures 0 <= TopCategory(rows).value.1 <= RevenueTotal(rows)
  {
    var ca := CategoryRevenue(rows);
    var top := TopCategory(rows).value;
    GroupByLowerBound(rows, CategoryKey, AmountOr0, 0);
    assert top.0 in Keys(ca);
    var j :| 0 <= j < |ca| && Keys(ca)[j] == top.0;
    assert Values(ca)[j] == ca[j].1 == top.1;
    assert forall i :: 0 <= i < |ca| ==> 0 <= Values(ca)[i];
    ElementAtMostSum(Values(ca), j);
  }
}

=== FILE: dashboard.dfy ===
/** The interactive dashboard of the second script: global KPI cards
    (`calculer_kpis`) and the aggregations `update_dashboard` draws from the
    filtered view. Where the callback would raise on an empty view
    (`iloc[0]` on no payment mode) the model returns `None`. */
module Dashboard {
  import opened Wrappers
  import opened Seqs
  import opened Sorting
  import opened Stats
  import opened Grouping
  import opened Ranking
  import opened Table
  import opened Filter

  /** The four KPI cards. */
  datatype Kpis = Kpis(totalSales: int, transactions: nat, meanAmount: Option<real>, meanSatisfaction: Option<real>)

  /** `calculer_kpis`: the total skips missing amounts (0 for none), the
      transaction count counts every row, and each mean divides by the
      number of present cells, undefined when there are none. */
  function GlobalKpis(view: seq<Row>): (k: Kpis)
    ensures k.transactions == |view|
    ensures k.totalSales == Total(view, AmountOr0)
    ensures Total(view, HasAmount) <= k.transactions
    ensures k.meanAmount.None? <==> Total(view, HasAmount) == 0
    ensures k.meanAmount.Some? ==>
      k.meanAmount.value == k.totalSales as real / Total(view, HasAmount) as real
    ensures k.meanSatisfaction.None? <==> Total(view, HasSatisfaction) == 0
    ensures k.meanSatisfaction.Some? ==>
      k.meanSatisfaction.value == Total(view, SatisfactionOr0) as real / Total(view, HasSatisfaction) as real
  {
    var amounts := Present(view, AmountCell);
    var scores := Present(view, SatisfactionKey);
    PresentTotals(view, AmountCell, AmountOr0, HasAmount);
    PresentTotals(view, SatisfactionKey, SatisfactionOr0, HasSatisfaction);
    Kpis(Sum(amounts), |view|, Mean(amounts), Mean(scores))
  }

  /** An empty view shows a zero total, no transaction and no means. */
  lemma EmptyViewKpis(view: seq<Row>)
    requires view == []
    ensures GlobalKpis(view) == Kpis(0, 0, None, None)
  {
  }

  /** `groupby('Date')['Montant'].sum()`: sales per calendar day, in
      strictly ascending day order (pandas sorts group keys). Every row has
      a day, so the days add up to the total sales. */
  function DailySales(view: seq<Row>): (d: seq<(int, int)>)
    ensures forall i, j :: 0 <= i < j < |d| ==> d[i].0 < d[j].0
    ensures forall day :: day in Keys(d) <==> HasKey(view, DayKey, day)
    ensures forall i :: 0 <= i < |d| ==> d[i].1 == SumWhere(view, DayKey, AmountOr0, d[i].0)
    ensures Sum(Values(d)) == GlobalKpis(view).totalSales
  {
    var d := SortBy(GroupBy(view, DayKey, AmountOr0), ByKey);
    SortedGroups(view, DayKey, AmountOr0, ByKey);
    SortedDistinctStrict(d);
    KeyedTotal(view, DayKey, AmountOr0);
    d
  }

  /** `groupby('Magasin')['Montant'].sum()`: per store, the sum of its
      present amounts; with no store missing, they add up to the total. */
  function StoreSales(view: seq<Row>): (ss: seq<(string, int)>)
    ensures Distinct(Keys(ss))
    ensures forall s :: s in Keys(ss) <==> HasKey(view, StoreKey, s)
    ensures forall i :: 0 <= i < |ss| ==> ss[i].1 == SumWhere(view, StoreKey, AmountOr0, ss[i].0)
    ensures Sum(Values(ss)) == SumKeyed(view, StoreKey, AmountOr0, AnyKey)
    ensures (forall i :: 0 <= i < |view| ==> view[i].store.Some?) ==>
      Sum(Values(ss)) == GlobalKpis(view).totalSales
  {
    GroupByMatchesReference(view, StoreKey, AmountOr0);
    GroupByKeys(view, StoreKey, AmountOr0);
    GroupByTotal(view, StoreKey, AmountOr0);
    KeyedTotal(view, StoreKey, AmountOr0);
    GroupBy(view, StoreKey, AmountOr0)
  }

  /** pandas `groupby(key)[col].mean()`: per group, the sum of the present
      cells (`sumOf`) over their number (`countOf`), undefined for a group
      whose cells are all missing. */
  function GroupMean<K(==, !new)>(rows: seq<Row>, key: Row -> Option<K>, sumOf: Row -> int, countOf: Row -> int)
    : (gm: seq<(K, Option<real>)>)
    ensures Keys(gm) == GroupKeys(rows, key)
    ensures forall i :: 0 <= i < |gm| ==> (gm[i].1.None? <==> SumWhere(rows, key, countOf, gm[i].0) == 0)
    ensures forall i :: 0 <= i < |gm| && gm[i].1.Some? ==>
      gm[i].1.value == SumWhere(rows, key, sumOf, gm[i].0) as real / SumWhere(rows, key, countOf, gm[i].0) as real
  {
    var sums := GroupBy(rows, key, sumOf);
    var counts := GroupBy(rows, key, countOf);
    GroupByMatchesReference(rows, key, sumOf);
    GroupByMatchesReference(rows, key, countOf);
    assert |sums| == |Keys(sums)| == |Keys(counts)| == |counts|;
    assert forall i :: 0 <= i < |sums| ==> counts[i].0 == sums[i].0 by {
      forall i | 0 <= i < |sums|
        ensures counts[i].0 == sums[i].0
      {
        assert Keys(sums)[i] == Keys(counts)[i];
      }
    }
    var gm := seq(|sums|, i requires 0 <= i < |sums| =>
      (sums[i].0, if counts[i].1 == 0 then None else Some(sums[i].1 as real / counts[i].1 as real)));
    assert Keys(gm) == Keys(sums);
    gm
  }

  /** `countOf` counts a row once exactly when it contributes to `sumOf`,
      and every counted contribution lies between `lo` and `hi`. */
  predicate CountsBetween(rows: seq<Row>, sumOf: Row -> int, countOf: Row -> int, lo: int, hi: int)
  {
    forall i :: 0 <= i < |rows| ==>
      (countOf(rows[i]) == 0 && sumOf(rows[i]) == 0) ||
      (countOf(rows[i]) == 1 && lo <= sumOf(rows[i]) <= hi)
  }

  /** Per group, the sum lies between `lo` and `hi` times the count. */
  lemma {:induction false} SumWhereBetween<K(!new)>(rows: seq<Row>, key: Row -> Option<K>, sumOf: Row -> int, countOf: Row -> int, lo: int, hi: int, k: K)
    requires CountsBetween(rows, sumOf, countOf, lo, hi)
    ensures 0 <= SumWhere(rows, key, countOf, k)
    ensures lo * SumWhere(rows, key, countOf, k) <= SumWhere(rows, key, sumOf, k) <= hi * SumWhere(rows, key, countOf, k)
  {
    if rows != [] {
      var prefix := rows[..|rows| - 1];
      var last := rows[|rows| - 1];
      assert CountsBetween(prefix, sumOf, countOf, lo, hi) by {
        assert forall i :: 0 <= i < |prefix| ==> prefix[i] == rows[i];
      }
      SumWhereBetween(prefix, key, sumOf, countOf, lo, hi, k);
      var c := SumWhere(prefix, key, countOf, k);
      var t := SumWhere(prefix, key, sumOf, k);
      if key(last) == Some(k) && countOf(last) == 1 {
        assert SumWhere(rows, key, countOf, k) == c + 1;
        assert lo <= SumWhere(rows, key, sumOf, k) - t <= hi;
        ScaleStep(lo, hi, c);
      }
    }
  }

  /** Multiplying by one more count adds one more factor. */
  lemma ScaleStep(lo: int, hi: int, c: int)
    ensures lo * (c + 1) == lo * c + lo
    ensures hi * (c + 1) == hi * c + hi
  {
  }

  /** Group means of cells lying between `lo` and `hi` lie between them. */
  lemma GroupMeanBetween<K(!new)>(rows: seq<Row>, key: Row -> Option<K>, sumOf: Row -> int, countOf: Row -> int, lo: int, hi: int)
    requires CountsBetween(rows, sumOf, countOf, lo, hi)
    ensures var gm := GroupMean(rows, key, sumOf, countOf);
      forall i :: 0 <= i < |gm| && gm[i].1.Some? ==> lo as real <= gm[i].1.value <= hi as real
  {
    var gm := GroupMean(rows, key, sumOf, countOf);
    forall i | 0 <= i < |gm| && gm[i].1.Some?
      ensures lo as real <= gm[i].1.value <= hi as real
    {
      var k := gm[i].0;
      SumWhereBetween(rows, key, sumOf, countOf, lo, hi, k);
      var n := SumWhere(rows, key, countOf, k);
      var total := SumWhere(rows, key, sumOf, k);
      assert n * lo <= total <= n * hi;
      RatioBetween(total, n, lo, hi);
    }
  }

  /** `groupby('Magasin')['Montant'].mean()`: each store's mean present
      amount, undefined for a store whose amounts are all missing. */
  function StoreMeans(view: seq<Row>): (sm: seq<(string, Option<real>)>)
    ensures Keys(sm) == GroupKeys(view, StoreKey)
    ensures forall i :: 0 <= i < |sm| ==> (sm[i].1.None? <==> SumWhere(view, StoreKey, HasAmount, sm[i].0) == 0)
    ensures forall i :: 0 <= i < |sm| && sm[i].1.Some? ==>
      sm[i].1.value == SumWhere(view, StoreKey, AmountOr0, sm[i].0) as real / SumWhere(view, StoreKey, HasAmount, sm[i].0) as real
  {
    GroupMean(view, StoreKey, AmountOr0, HasAmount)
  }

  /** A row of the store statistics table: `sum`, `count`, `mean`. */
  datatype StoreStat = StoreStat(sales: int, count: int, mean: Option<real>)

  function SalesColumn(st: seq<(string, StoreStat)>): seq<int>
  {
    seq(|st|, i requires 0 <= i < |st| => st[i].1.sales)
  }

  function CountColumn(st: seq<(string, StoreStat)>): seq<int>
  {
    seq(|st|, i requires 0 <= i < |st| => st[i].1.count)
  }

  /** `groupby('Magasin').agg({'Montant': ['sum', 'count', 'mean']})`: the
      count counts present amounts only, and each mean is the store's sum
      over its count. */
  function StoreStats(view: seq<Row>): (st: seq<(string, StoreStat)>)
    ensures Keys(st) == GroupKeys(view, StoreKey)
    ensures forall i :: 0 <= i < |st| ==>
      && st[i].1.sales == SumWhere(view, StoreKey, AmountOr0, st[i].0)
      && st[i].1.count == SumWhere(view, StoreKey, HasAmount, st[i].0)
    ensures forall i :: 0 <= i < |st| ==> (st[i].1.mean.None? <==> st[i].1.count == 0)
    ensures forall i :: 0 <= i < |st| && st[i].1.mean.Some? ==>
      st[i].1.mean.value == st[i].1.sales as real / st[i].1.count as real
    ensures Sum(SalesColumn(st)) == SumKeyed(view, StoreKey, AmountOr0, AnyKey)
    ensures Sum(CountColumn(st)) == SumKeyed(view, StoreKey, HasAmount, AnyKey)
  {
    var sums := GroupBy(view, StoreKey, AmountOr0);
    var counts := GroupBy(view, StoreKey, HasAmount);
    var means := StoreMeans(view);
    GroupByMatchesReference(view, StoreKey, AmountOr0);
    GroupByMatchesReference(view, StoreKey, HasAmount);
    assert |sums| == |Keys(sums)| == |Keys(counts)| == |counts| == |Keys(means)|;
    assert forall i :: 0 <= i < |sums| ==> counts[i].0 == sums[i].0 == means[i].0 by {
      forall i | 0 <= i < |sums|
        ensures counts[i].0 == sums[i].0 == means[i].0
      {
        assert Keys(sums)[i] == Keys(counts)[i] == Keys(means)[i];
      }
    }
    var st := seq(|sums|, i requires 0 <= i < |sums| =>
      (sums[i].0, StoreStat(sums[i].1, counts[i].1, means[i].1)));
    assert Keys(st) == Keys(sums);
    assert SalesColumn(st) == Values(sums);
    assert CountColumn(st) == Values(counts);
    GroupByTotal(view, StoreKey, AmountOr0);
    GroupByTotal(view, StoreKey, HasAmount);
    st
  }

  /** With no store missing, the table's sales add up to the total sales and
      its counts to the number of present amounts. */
  lemma StoreStatsTotals(view: seq<Row>)
    requires forall i :: 0 <= i < |view| ==> view[i].store.Some?
    ensures Sum(SalesColumn(StoreStats(view))) == GlobalKpis(view).totalSales
    ensures Sum(CountColumn(StoreStats(view))) == |Present(view, AmountCell)|
  {
    KeyedTotal(view, StoreKey, AmountOr0);
    KeyedTotal(view, StoreKey, HasAmount);
    PresentTotals(view, AmountCell, AmountOr0, HasAmount);
  }

  /** `groupby('Categorie_Produit')['Quantite'].sum()`: per category, the
      sum of its present quantities. */
  function CategoryQuantities(view: seq<Row>): (cq: seq<(string, int)>)
    ensures Distinct(Keys(cq))
    ensures forall c :: c in Keys(cq) <==> HasKey(view, CategoryKey, c)
    ensures forall i :: 0 <= i < |cq| ==> cq[i].1 == SumWhere(view, CategoryKey, QuantityOr0, cq[i].0)
    ensures (forall i :: 0 <= i < |view| ==> view[i].category.Some?) ==>
      Sum(Values(cq)) == Total(view, QuantityOr0)
  {
    GroupByMatchesReference(view, CategoryKey, QuantityOr0);
    GroupByKeys(view, CategoryKey, QuantityOr0);
    GroupByTotal(view, CategoryKey, QuantityOr0);
    KeyedTotal(view, CategoryKey, QuantityOr0);
    GroupBy(view, CategoryKey, QuantityOr0)
  }

  /** `groupby(['Magasin', 'Categorie_Produit'])['Montant'].sum()`: per
      (store, category) pair present in the view, the sum of its present
      amounts. */
  function StoreCategorySales(view: seq<Row>): (g: seq<((string, string), int)>)
    ensures Distinct(Keys(g))
    ensures forall p :: p in Keys(g) <==> HasKey(view, StoreCategoryKey, p)
    ensures forall i :: 0 <= i < |g| ==> g[i].1 == SumWhere(view, StoreCategoryKey, AmountOr0, g[i].0)
  {
    GroupByMatchesReference(view, StoreCategoryKey, AmountOr0);
    GroupByKeys(view, StoreCategoryKey, AmountOr0);
    GroupBy(view, StoreCategoryKey, AmountOr0)
  }

  /** Selects the (store, category) pairs of one store. */
  function AtStore(s: string): ((string, string)) -> bool
  {
    (p: (string, string)) => p.0 == s
  }

  lemma {:induction false} SumKeyedAtStore(rows: seq<Row>, s: string, val: Row -> int)
    requires forall i :: 0 <= i < |rows| && rows[i].store == Some(s) ==> rows[i].category.Some?
    ensures SumKeyed(rows, StoreCategoryKey, val, AtStore(s)) == SumWhere(rows, StoreKey, val, s)
  {
    if rows != [] {
      var prefix := rows[..|rows| - 1];
      assert forall i :: 0 <= i < |prefix| ==> prefix[i] == rows[i];
      SumKeyedAtStore(prefix, s, val);
    }
  }

  /** The stacked bars add up to the pie: for every store, its categories'
      sales in the store-by-category breakdown sum to its sales, provided
      none of its rows lacks a category (pandas drops those from the
      breakdown). */
  lemma StoreCategoryRollUp(view: seq<Row>)
    requires forall i :: 0 <= i < |view| && view[i].store.Some? ==> view[i].category.Some?
    ensures forall i :: 0 <= i < |StoreSales(view)| ==>
      SumSelected(StoreCategorySales(view), AtStore(StoreSales(view)[i].0)) == StoreSales(view)[i].1
  {
    var ss := StoreSales(view);
    forall i | 0 <= i < |ss|
      ensures SumSelected(StoreCategorySales(view), AtStore(ss[i].0)) == ss[i].1
    {
      GroupByRollUp(view, StoreCategoryKey, AmountOr0, AtStore(ss[i].0));
      SumKeyedAtStore(view, ss[i].0, AmountOr0);
    }
  }

  /** `mode_plus_utilise` and `pct_mode`: the most used payment mode and its
      count as a percentage of all counted payments, in (0, 100]; `None`
      where `iloc[0]` raises because no row of the view has a mode. */
  function PaymentLeader(view: seq<Row>): (p: Option<(string, real)>)
    ensures p.None? <==> forall i :: 0 <= i < |view| ==> view[i].payment.None?
    ensures p.Some? ==> HasKey(view, PaymentKey, p.value.0)
    ensures p.Some? ==> forall k :: SumWhere(view, PaymentKey, Unit, k) <= SumWhere(view, PaymentKey, Unit, p.value.0)
    ensures p.Some? ==> 0 < SumKeyed(view, PaymentKey, Unit, AnyKey)
    ensures p.Some? ==> 0.0 < p.value.1 <= 100.0
    ensures p.Some? ==>
      p.value.1 == Percent(SumWhere(view, PaymentKey, Unit, p.value.0), SumKeyed(view, PaymentKey, Unit, AnyKey))
  {
    var modes := ValueCounts(view, PaymentKey);
    var mode := ModeOf(view, PaymentKey);
    NoValuesIffNoKey(view, PaymentKey);
    if modes == [] then None
    else
      var top := modes[0].1;
      var whole := Sum(Values(modes));
      assert Values(modes)[0] == top;
      assert forall i :: 0 <= i < |modes| ==> 0 <= Values(modes)[i];
      ElementAtMostSum(Values(modes), 0);
      PercentBounds(top, whole);
      Some((mode.value, Percent(top, whole)))
  }

  /** `groupby('Magasin')['Satisfaction_Client'].mean()`: each store's mean
      score; with every score in 1..5, every mean lies in [1, 5]. */
  function SatisfactionByStore(view: seq<Row>): (sm: seq<(string, Option<real>)>)
    ensures Keys(sm) == GroupKeys(view, StoreKey)
    ensures forall i :: 0 <= i < |sm| ==> (sm[i].1.None? <==> SumWhere(view, StoreKey, HasSatisfaction, sm[i].0) == 0)
    ensures forall i :: 0 <= i < |sm| && sm[i].1.Some? ==>
      sm[i].1.value == SumWhere(view, StoreKey, SatisfactionOr0, sm[i].0) as real / SumWhere(view, StoreKey, HasSatisfaction, sm[i].0) as real
    ensures ValidScores(view) ==> forall i :: 0 <= i < |sm| && sm[i].1.Some? ==> 1.0 <= sm[i].1.value <= 5.0
  {
    ScoreBounds(view);
    GroupMean(view, StoreKey, SatisfactionOr0, HasSatisfaction)
  }

  /** `groupby('Categorie_Produit')['Satisfaction_Client'].mean()`. */
  function SatisfactionByCategory(view: seq<Row>): (cm: seq<(string, Option<real>)>)
    ensures Keys(cm) == GroupKeys(view, CategoryKey)
    ensures forall i :: 0 <= i < |cm| ==> (cm[i].1.None? <==> SumWhere(view, CategoryKey, HasSatisfaction, cm[i].0) == 0)
    ensures forall i :: 0 <= i < |cm| && cm[i].1.Some? ==>
      cm[i].1.value == SumWhere(view, CategoryKey, SatisfactionOr0, cm[i].0) as real / SumWhere(view, CategoryKey, HasSatisfaction, cm[i].0) as real
    ensures ValidScores(view) ==> forall i :: 0 <= i < |cm| && cm[i].1.Some? ==> 1.0 <= cm[i].1.value <= 5.0
  {
    ScoreBounds(view);
    GroupMean(view, CategoryKey, SatisfactionOr0, HasSatisfaction)
  }

  /** Every present satisfaction score is on the 1..5 scale. */
  predicate ValidScores(view: seq<Row>)
  {
    forall i :: 0 <= i < |view| && view[i].satisfaction.Some? ==> 1 <= view[i].satisfaction.value <= 5
  }

  lemma ScoreBounds(view: seq<Row>)
    ensures ValidScores(view) ==>
      var gs := GroupMean(view, StoreKey, SatisfactionOr0, HasSatisfaction);
      var gc := GroupMean(view, CategoryKey, SatisfactionOr0, HasSatisfaction);
      && (forall i :: 0 <= i < |gs| && gs[i].1.Some? ==> 1.0 <= gs[i].1.value <= 5.0)
      && (forall i :: 0 <= i < |gc| && gc[i].1.Some? ==> 1.0 <= gc[i].1.value <= 5.0)
  {
    if ValidScores(view) {
      GroupMeanBetween(view, StoreKey, SatisfactionOr0, HasSatisfaction, 1, 5);
      GroupMeanBetween(view, CategoryKey, SatisfactionOr0, HasSatisfaction, 1, 5);
    }
  }

  /** `value_counts().sort_index()` of the scores: one entry per score
      present, in strictly ascending score order, holding how many rows
      carry it; the counts add up to the number of rows with a score. */
  function SatisfactionDistribution(view: seq<Row>): (dist: seq<(int, int)>)
    ensures forall i, j :: 0 <= i < j < |dist| ==> dist[i].0 < dist[j].0
    ensures forall k :: k in Keys(dist) <==> HasKey(view, SatisfactionKey, k)
    ensures forall i :: 0 <= i < |dist| ==> dist[i].1 == SumWhere(view, SatisfactionKey, Unit, dist[i].0)
    ensures forall i :: 0 <= i < |dist| ==> 1 <= dist[i].1
    ensures Sum(Values(dist)) == |Present(view, SatisfactionKey)|
  {
    var vc := ValueCounts(view, SatisfactionKey);
    var dist := SortBy(vc, ByKey);
    Resorted(vc, ByKey);
    DistinctKeys(vc);
    SortPreservesDistinct(vc, ByKey, First);
    DistinctKeys(dist);
    SortedDistinctStrict(dist);
    KeyedCountPresent(view, SatisfactionKey);
    dist
  }

  /** Re-sorting entries keeps each entry, the set of keys and the total. */
  lemma Resorted<K(!new)>(g: seq<(K, int)>, rank: ((K, int)) -> int)
    ensures var s := SortBy(g, rank);
      && (forall i :: 0 <= i < |s| ==> s[i] in g)
      && (forall k :: k in Keys(s) <==> k in Keys(g))
      && Sum(Values(s)) == Sum(Values(g))
  {
    var s := SortBy(g, rank);
    forall i | 0 <= i < |s|
      ensures s[i] in g
    {
      assert s[i] in multiset(s);
    }
    forall k
      ensures k in Keys(s) <==> k in Keys(g)
    {
      if k in Keys(s) {
        var i :| 0 <= i < |s| && Keys(s)[i] == k;
        var j :| 0 <= j < |g| && g[j] == s[i];
        assert Keys(g)[j] == k;
      }
      if k in Keys(g) {
        var j :| 0 <= j < |g| && Keys(g)[j] == k;
        assert g[j] in multiset(s);
        var i :| 0 <= i < |s| && s[i] == g[j];
        assert Keys(s)[i] == k;
      }
    }
    SortKeepsSelected(g, rank, AnyKey);
    SumValuesIsSelectedAll(s);
    SumValuesIsSelectedAll(g);
  }

  /** The `Pourcentage` column: each score's count as a percentage of all
      scored rows, each in (0, 100], together 100 (none for no score). */
  function SatisfactionShares(view: seq<Row>): (p: seq<(int, real)>)
    ensures Keys(p) == Keys(SatisfactionDistribution(view))
    ensures forall i :: 0 <= i < |p| ==>
      |Present(view, SatisfactionKey)| != 0 &&
      p[i].1 == Percent(SumWhere(view, SatisfactionKey, Unit, p[i].0), |Present(view, SatisfactionKey)|)
    ensures forall i :: 0 <= i < |p| ==> 0.0 < p[i].1 <= 100.0
    ensures p != [] ==> SumReal(Values(p)) == 100.0
  {
    var dist := SatisfactionDistribution(view);
    if dist == [] then []
    else
      CountShares(dist);
      Shares(dist, Sum(Values(dist)))
  }

  /** Everything `update_dashboard` computes from one view. */
  datatype Panels = Panels(
    kpis: Kpis,
    daily: seq<(int, int)>,
    storeSales: seq<(string, int)>,
    storeMeans: seq<(string, Option<real>)>,
    storeStats: seq<(string, StoreStat)>,
    categoryQuantities: seq<(string, int)>,
    storeCategorySales: seq<((string, string), int)>,
    paymentModes: seq<(string, int)>,
    paymentLeader: Option<(string, real)>,
    satisfactionByStore: seq<(string, Option<real>)>,
    satisfactionByCategory: seq<(string, Option<real>)>,
    satisfactionDistribution: seq<(int, int)>,
    satisfactionShares: seq<(int, real)>)

  /** Everything `update_dashboard` draws from one view. The panels agree
      with each other: the daily sales add up to the total-sales card, and
      so do the store sales when no store is missing; the transaction card
      counts the view; the payment card is missing exactly when no row has a
      payment mode; the `Pourcentage` column has one entry per score row of
      the satisfaction table. */
  function Summarize(view: seq<Row>): (p: Panels)
    ensures p.kpis.transactions == |view|
    ensures Sum(Values(p.daily)) == p.kpis.totalSales
    ensures (forall i :: 0 <= i < |view| ==> view[i].store.Some?) ==>
      Sum(Values(p.storeSales)) == p.kpis.totalSales
    ensures p.paymentLeader.None? <==> forall i :: 0 <= i < |view| ==> view[i].payment.None?
    ensures Keys(p.satisfactionShares) == Keys(p.satisfactionDistribution)
  {
    Panels(GlobalKpis(view), DailySales(view), StoreSales(view), StoreMeans(view), StoreStats(view),
           CategoryQuantities(view), StoreCategorySales(view), ValueCounts(view, PaymentKey),
           PaymentLeader(view), SatisfactionByStore(view), SatisfactionByCategory(view),
           SatisfactionDistribution(view), SatisfactionShares(view))
  }

  /** `update_dashboard` as written: filter the table with the date test
      as written, then aggregate the view. Line 641 reads `iloc[0]` of the
      payment-mode counts, which raises `IndexError` when no row of the view
      has a payment mode; the callback then produces no panel at all
      (`None`). */
  function UpdateDashboardAsWritten(table: seq<Row>, f: FilterSpec): (d: Option<Panels>)
    ensures d.None? <==>
      forall i :: 0 <= i < |table| && MatchesAsWritten(f, table[i]) ==> table[i].payment.None?
    ensures d.Some? ==> d.value == Summarize(ApplyFilterAsWritten(table, f)) && d.value.paymentLeader.Some?
  {
    var view := ApplyFilterAsWritten(table, f);
    NoPaymentInViewAsWritten(table, f);
    var panels := Summarize(view);
    if panels.paymentLeader.None? then None else Some(panels)
  }

  /** `update_dashboard` with the empty-view case handled: it shows a panel
      set for every filter. The view never counts more transactions than
      the table holds and counts every matching row, and there is no
      payment leader exactly when no matching row has a payment mode. */
  function UpdateDashboard(table: seq<Row>, f: FilterSpec): (d: Panels)
    ensures d.kpis.transactions <= |table|
    ensures forall i :: 0 <= i < |table| && Matches(f, table[i]) ==> d.kpis.transactions > 0
    ensures d.paymentLeader.None? <==> forall i :: 0 <= i < |table| && Matches(f, table[i]) ==> table[i].payment.None?
  {
    var view := ApplyFilter(table, f);
    ViewSize(table, f);
    NoPaymentInView(table, f);
    Summarize(view)
  }

  /** Filtering with every selector `ALL` and no complete date range shows
      the unfiltered dashboard. */
  lemma UnfilteredDashboard(table: seq<Row>, f: FilterSpec)
    requires Unrestricted(f) && (f.start.None? || f.end.None?)
    ensures UpdateDashboard(table, f) == Summarize(table)
  {
    NoFilterIdentity(table, f);
  }

  /** A selector naming a value absent from the table empties the view: the
      callback as written raises at `iloc[0]`, while the corrected dashboard
      shows zero totals, no means and no payment leader. */
  lemma AbsentValueDashboard(table: seq<Row>, f: FilterSpec)
    requires
      || (f.store != ALL && forall i :: 0 <= i < |table| ==> table[i].store != Some(f.store))
      || (f.category != ALL && forall i :: 0 <= i < |table| ==> table[i].category != Some(f.category))
      || (f.payment != ALL && forall i :: 0 <= i < |table| ==> table[i].payment != Some(f.payment))
    ensures UpdateDashboardAsWritten(table, f).None?
    ensures UpdateDashboard(table, f).kpis == Kpis(0, 0, None, None)
    ensures UpdateDashboard(table, f).paymentLeader.None?
  {
    AbsentValueEmpty(table, f);
  }

  /** Selectors that no row satisfies together, such as a store and a
      category with no transaction in common: the callback as written
      fails, while the corrected dashboard shows zero totals, no means and
      no payment leader. */
  lemma NoSelectedRowDashboard(table: seq<Row>, f: FilterSpec)
    requires forall i :: 0 <= i < |table| ==> !SelectorsMatch(f, table[i])
    ensures UpdateDashboardAsWritten(table, f).None?
    ensures UpdateDashboard(table, f).kpis == Kpis(0, 0, None, None)
    ensures UpdateDashboard(table, f).paymentLeader.None?
  {
    NoSelectedRowEmpty(table, f);
  }

  /** On a table whose timestamps carry no time of day, the callback as
      written fails exactly when the corrected dashboard has no payment
      leader, and otherwise shows the same panels. */
  lemma AsWrittenAgreesAtMidnight(table: seq<Row>, f: FilterSpec)
    requires forall i :: 0 <= i < |table| ==> table[i].time % DAY == 0
    ensures UpdateDashboardAsWritten(table, f).None? <==> UpdateDashboard(table, f).paymentLeader.None?
    ensures UpdateDashboardAsWritten(table, f).Some? ==> UpdateDashboardAsWritten(table, f).value == UpdateDashboard(table, f)
  {
    ApplyFilterAgreesAtMidnight(table, f);
  }

  /** A table whose only transaction pays by some mode one second into the
      last picked day: the callback as written filters it out and fails,
      while the corrected dashboard counts it and shows its payment mode. */
  lemma EndDayOnlyRowFails(table: seq<Row>, f: FilterSpec)
    requires |table| == 1 && f.start.Some? && f.end.Some? && f.start.value <= f.end.value
    requires SelectorsMatch(f, table[0]) && table[0].payment.Some?
    requires table[0].time == f.end.value * DAY + 1
    ensures UpdateDashboardAsWritten(table, f).None?
    ensures UpdateDashboard(table, f).kpis.transactions == 1
    ensures UpdateDashboard(table, f).paymentLeader.Some?
  {
    var r := table[0];
    EndDayDroppedAsWritten(f.start.value, f.end.value);
    assert !MatchesAsWritten(f, r);
    assert Matches(f, r);
    assert UpdateDashboardAsWritten(table, f).None? by {
      assert forall i :: 0 <= i < |table| ==> table[i] == r;
    }
    var d := UpdateDashboard(table, f);
    assert d.kpis.transactions > 0;
    assert d.paymentLeader.Some?;
  }
}

=== FILE: decimal.dfy ===
/** Loading the dashboard's amount column: every cell is rendered as text,
    a decimal comma becomes a decimal point, and the text is parsed as a
    number, a cell that does not parse becoming missing. */
module Decimal {
  import opened Wrappers

  /** `str.replace(',', '.')`: every comma becomes a point. */
  function NormalizeDecimal(s: string): (t: string)
    ensures |t| == |s|
    ensures forall i :: 0 <= i < |s| ==> t[i] == (if s[i] == ',' then '.' else s[i])
    ensures ',' !in t
  {
    if s == [] then []
    else [if s[0] == ',' then '.' else s[0]] + NormalizeDecimal(s[1..])
  }

  /** Normalising twice is normalising once. */
  lemma NormalizeIdempotent(s: string)
    ensures NormalizeDecimal(NormalizeDecimal(s)) == NormalizeDecimal(s)
  {
    var t := NormalizeDecimal(s);
    NormalizeFixedPoint(t);
  }

  /** The text is left unchanged exactly when it holds no comma. */
  lemma NormalizeFixedPoint(s: string)
    ensures NormalizeDecimal(s) == s <==> ',' !in s
  {
    var t := NormalizeDecimal(s);
    if ',' !in s {
      assert forall i :: 0 <= i < |s| ==> t[i] == s[i];
    }
  }

  /** Two texts that differ only in using a comma or a point as separator. */
  predicate SameUpToSeparator(s: string, u: string)
  {
    && |s| == |u|
    && forall i :: 0 <= i < |s| ==>
         s[i] == u[i] || (s[i] in {',', '.'} && u[i] in {',', '.'})
  }

  /** `pd.to_numeric(cell.replace(',', '.'), errors='coerce')`, with the
      library parser `parse` abstract: `None` is a cell coerced to NaN. */
  function CoerceAmount(cell: string, parse: string -> Option<int>): (a: Option<int>)
    ensures ',' !in cell ==> a == parse(cell)
  {
    NormalizeFixedPoint(cell);
    parse(NormalizeDecimal(cell))
  }

  /** "12,50" and "12.50" load as the same amount, whatever the parser. */
  lemma SeparatorInsensitive(s: string, u: string, parse: string -> Option<int>)
    requires SameUpToSeparator(s, u)
    ensures CoerceAmount(s, parse) == CoerceAmount(u, parse)
  {
    var a, b := NormalizeDecimal(s), NormalizeDecimal(u);
    assert forall i :: 0 <= i < |a| ==> a[i] == b[i];
    assert a == b;
  }
}

=== FILE: filter.dfy ===
/** The dashboard's filter: `update_dashboard` narrows the table by store,
    category and payment mode (each a value or `ALL`) and by a date range,
    one `if` at a time, each `if` keeping the rows that satisfy it. */
module Filter {
  import opened Wrappers
  import opened Seqs
  import opened Table

  /** The selector value meaning "no restriction". */
  const ALL: string := "ALL"

  /** The five inputs of the callback. The dates are the day numbers of the
      date picker's `YYYY-MM-DD` strings, `None` when not picked; the
      picker's initial timestamps are not represented. */
  datatype FilterSpec = FilterSpec(
    store: string,
    category: string,
    payment: string,
    start: Option<int>,
    end: Option<int>)

  /** One active restriction. */
  datatype Step =
    | StoreIs(store: string)
    | CategoryIs(category: string)
    | PaymentIs(payment: string)
    | Between(first: int, last: int)
    | BetweenAsWritten(first: int, last: int)

  /** A row satisfies a restriction. A missing cell equals no value; the
      date range holds the whole of its first and last day. */
  predicate Holds(step: Step, r: Row)
  {
    match step
    case StoreIs(s) => r.store == Some(s)
    case CategoryIs(c) => r.category == Some(c)
    case PaymentIs(p) => r.payment == Some(p)
    case Between(first, last) => first <= Day(r.time) <= last
    case BetweenAsWritten(first, last) => InRangeAsWritten(first, last, r.time)
  }

  /** The restrictions of the three selectors: one per selector that is
      not `ALL`. */
  function SelectorSteps(f: FilterSpec): (steps: seq<Step>)
    ensures |steps| <= 3
  {
    (if f.store != ALL then [StoreIs(f.store)] else []) +
    (if f.category != ALL then [CategoryIs(f.category)] else []) +
    (if f.payment != ALL then [PaymentIs(f.payment)] else [])
  }

  /** The restrictions a filter activates: the selectors', then the date
      range only when both of its ends are given. */
  function Steps(f: FilterSpec): (steps: seq<Step>)
    ensures |steps| <= 4
  {
    SelectorSteps(f) +
    (if f.start.Some? && f.end.Some? then [Between(f.start.value, f.end.value)] else [])
  }

  /** The same restrictions with the date range tested as the callback
      writes it. */
  function StepsAsWritten(f: FilterSpec): (steps: seq<Step>)
    ensures |steps| == |Steps(f)|
    ensures forall k :: 0 <= k < |SelectorSteps(f)| ==> steps[k] == Steps(f)[k]
  {
    SelectorSteps(f) +
    (if f.start.Some? && f.end.Some? then [BetweenAsWritten(f.start.value, f.end.value)] else [])
  }

  /** Reference definition: a row matches every non-`ALL` selector and, when
      both dates are given, falls between them inclusively. */
  predicate Matches(f: FilterSpec, r: Row)
  {
    && SelectorsMatch(f, r)
    && (f.start.Some? && f.end.Some? ==> f.start.value <= Day(r.time) <= f.end.value)
  }

  /** A row matches the store, category and payment selectors. */
  predicate SelectorsMatch(f: FilterSpec, r: Row)
  {
    && (f.store == ALL || r.store == Some(f.store))
    && (f.category == ALL || r.category == Some(f.category))
    && (f.payment == ALL || r.payment == Some(f.payment))
  }

  /** The filter the callback writes: the selectors, and, when both dates
      are given, the timestamp between the midnights of the picked days. */
  predicate MatchesAsWritten(f: FilterSpec, r: Row)
  {
    && SelectorsMatch(f, r)
    && (f.start.Some? && f.end.Some? ==> InRangeAsWritten(f.start.value, f.end.value, r.time))
  }

  predicate AllHold(steps: seq<Step>, r: Row)
  {
    forall i :: 0 <= i < |steps| ==> Holds(steps[i], r)
  }

  /** Satisfying the selectors' restrictions is matching the selectors. */
  lemma SelectorStepsMatch(f: FilterSpec)
    ensures forall r :: AllHold(SelectorSteps(f), r) <==> SelectorsMatch(f, r)
  {
    var a := if f.store != ALL then [StoreIs(f.store)] else [];
    var b := if f.category != ALL then [CategoryIs(f.category)] else [];
    var c := if f.payment != ALL then [PaymentIs(f.payment)] else [];
    assert SelectorSteps(f) == a + b + c;
    forall r
      ensures AllHold(SelectorSteps(f), r) <==> SelectorsMatch(f, r)
    {
      AllHoldAppend(a + b, c, r);
      AllHoldAppend(a, b, r);
      assert AllHold(a, r) <==> (f.store == ALL || r.store == Some(f.store)) by {
        if f.store != ALL { assert a[0] == StoreIs(f.store); }
      }
      assert AllHold(b, r) <==> (f.category == ALL || r.category == Some(f.category)) by {
        if f.category != ALL { assert b[0] == CategoryIs(f.category); }
      }
      assert AllHold(c, r) <==> (f.payment == ALL || r.payment == Some(f.payment)) by {
        if f.payment != ALL { assert c[0] == PaymentIs(f.payment); }
      }
    }
  }

  /** Satisfying every activated restriction is matching the filter. */
  lemma StepsMatch(f: FilterSpec)
    ensures forall r :: AllHold(Steps(f), r) <==> Matches(f, r)
  {
    var d := if f.start.Some? && f.end.Some? then [Between(f.start.value, f.end.value)] else [];
    SelectorStepsMatch(f);
    forall r
      ensures AllHold(Steps(f), r) <==> Matches(f, r)
    {
      AllHoldAppend(SelectorSteps(f), d, r);
      assert AllHold(d, r) <==> (f.start.Some? && f.end.Some? ==> f.start.value <= Day(r.time) <= f.end.value) by {
        if f.start.Some? && f.end.Some? { assert d[0] == Between(f.start.value, f.end.value); }
      }
    }
  }

  /** Satisfying every restriction as written is matching the filter as
      written. */
  lemma StepsMatchAsWritten(f: FilterSpec)
    ensures forall r :: AllHold(StepsAsWritten(f), r) <==> MatchesAsWritten(f, r)
  {
    var d := if f.start.Some? && f.end.Some? then [BetweenAsWritten(f.start.value, f.end.value)] else [];
    SelectorStepsMatch(f);
    forall r
      ensures AllHold(StepsAsWritten(f), r) <==> MatchesAsWritten(f, r)
    {
      AllHoldAppend(SelectorSteps(f), d, r);
      assert AllHold(d, r) <==>
        (f.start.Some? && f.end.Some? ==> InRangeAsWritten(f.start.value, f.end.value, r.time)) by {
        if f.start.Some? && f.end.Some? { assert d[0] == BetweenAsWritten(f.start.value, f.end.value); }
      }
    }
  }

  lemma AllHoldAppend(s: seq<Step>, t: seq<Step>, r: Row)
    ensures AllHold(s + t, r) <==> AllHold(s, r) && AllHold(t, r)
  {
    if AllHold(s, r) && AllHold(t, r) {
      forall i | 0 <= i < |s + t|
        ensures Holds((s + t)[i], r)
      {
        if i >= |s| {
          assert (s + t)[i] == t[i - |s|];
        }
      }
    }
    if AllHold(s + t, r) {
      forall i | 0 <= i < |s|
        ensures Holds(s[i], r)
      {
        assert (s + t)[i] == s[i];
      }
      forall i | 0 <= i < |t|
        ensures Holds(t[i], r)
      {
        assert (s + t)[|s| + i] == t[i];
      }
    }
  }

  lemma AllHoldCons(steps: seq<Step>)
    requires steps != []
    ensures forall r :: AllHold(steps, r) <==> Holds(steps[0], r) && AllHold(steps[1..], r)
  {
    forall r
      ensures AllHold(steps, r) <==> Holds(steps[0], r) && AllHold(steps[1..], r)
    {
      AllHoldAppend([steps[0]], steps[1..], r);
      assert steps == [steps[0]] + steps[1..];
    }
  }

  /** pandas boolean indexing `df[mask]`: the rows satisfying `step`, in
      order. */
  function Keep(rows: seq<Row>, step: Step): (kept: seq<Row>)
    ensures IsSubsequence(kept, rows)
    ensures forall r :: multiset(kept)[r] == if Holds(step, r) then multiset(rows)[r] else 0
  {
    if rows == [] then []
    else
      var prefix := rows[..|rows| - 1];
      var last := rows[|rows| - 1];
      var k := Keep(prefix, step);
      assert rows == prefix + [last];
      if Holds(step, last) then
        assert (k + [last])[..|k|] == k;
        k + [last]
      else k
  }

  /** The `if`s applied one after the other. */
  function Chain(rows: seq<Row>, steps: seq<Step>): (view: seq<Row>)
    ensures IsSubsequence(view, rows)
    ensures forall r :: multiset(view)[r] == if AllHold(steps, r) then multiset(rows)[r] else 0
    decreases |steps|
  {
    if steps == [] then
      SubsequenceReflexive(rows);
      rows
    else
      var kept := Keep(rows, steps[0]);
      var view := Chain(kept, steps[1..]);
      SubsequenceTransitive(view, kept, rows);
      AllHoldCons(steps);
      view
  }

  /** The filtered view of `update_dashboard`: an order-preserving
      selection of the table's rows holding exactly the rows that match,
      each as often as in the table. The table itself is an immutable value,
      as the callback's `df.copy()` leaves the loaded frame untouched. */
  function ApplyFilter(table: seq<Row>, f: FilterSpec): (view: seq<Row>)
    ensures IsSubsequence(view, table)
    ensures forall i :: 0 <= i < |view| ==> Matches(f, view[i])
    ensures forall r :: multiset(view)[r] == if Matches(f, r) then multiset(table)[r] else 0
  {
    StepsMatch(f);
    var view := Chain(table, Steps(f));
    assert forall i :: 0 <= i < |view| ==> Matches(f, view[i]) by {
      forall i | 0 <= i < |view|
        ensures Matches(f, view[i])
      {
        assert view[i] in multiset(view);
      }
    }
    view
  }

  /** The view the callback computes as written: the same selection, with
      the date range tested against midnight of each picked day. */
  function ApplyFilterAsWritten(table: seq<Row>, f: FilterSpec): (view: seq<Row>)
    ensures IsSubsequence(view, table)
    ensures forall i :: 0 <= i < |view| ==> MatchesAsWritten(f, view[i])
    ensures forall r :: multiset(view)[r] == if MatchesAsWritten(f, r) then multiset(table)[r] else 0
  {
    StepsMatchAsWritten(f);
    var view := Chain(table, StepsAsWritten(f));
    assert forall i :: 0 <= i < |view| ==> MatchesAsWritten(f, view[i]) by {
      forall i | 0 <= i < |view|
        ensures MatchesAsWritten(f, view[i])
      {
        assert view[i] in multiset(view);
      }
    }
    view
  }

  /** A row is in the view exactly when it is in the table and matches. */
  lemma InView(table: seq<Row>, f: FilterSpec)
    ensures forall r :: r in ApplyFilter(table, f) <==> r in table && Matches(f, r)
  {
    var view := ApplyFilter(table, f);
    forall r
      ensures r in view <==> r in table && Matches(f, r)
    {
      assert r in view <==> r in multiset(view);
      assert r in table <==> r in multiset(table);
    }
  }

  /** No row of the view has a payment mode exactly when no matching row of
      the table has one. */
  lemma NoPaymentInView(table: seq<Row>, f: FilterSpec)
    ensures (forall i :: 0 <= i < |ApplyFilter(table, f)| ==> ApplyFilter(table, f)[i].payment.None?) <==>
      (forall i :: 0 <= i < |table| && Matches(f, table[i]) ==> table[i].payment.None?)
  {
    InView(table, f);
    NoPaymentAmong(ApplyFilter(table, f), table, r => Matches(f, r));
  }

  /** The same for the view as written and the filter as written. */
  lemma NoPaymentInViewAsWritten(table: seq<Row>, f: FilterSpec)
    ensures (forall i :: 0 <= i < |ApplyFilterAsWritten(table, f)| ==> ApplyFilterAsWritten(table, f)[i].payment.None?) <==>
      (forall i :: 0 <= i < |table| && MatchesAsWritten(f, table[i]) ==> table[i].payment.None?)
  {
    var view := ApplyFilterAsWritten(table, f);
    forall r
      ensures r in view <==> r in table && MatchesAsWritten(f, r)
    {
      assert r in view <==> r in multiset(view);
      assert r in table <==> r in multiset(table);
    }
    NoPaymentAmong(view, table, r => MatchesAsWritten(f, r));
  }

  /** The same fact for any view holding exactly the table rows that `keep`
      accepts. */
  lemma NoPaymentAmong(view: seq<Row>, table: seq<Row>, keep: Row -> bool)
    requires forall r :: r in view <==> r in table && keep(r)
    ensures (forall i :: 0 <= i < |view| ==> view[i].payment.None?) <==>
      (forall i :: 0 <= i < |table| && keep(table[i]) ==> table[i].payment.None?)
  {
    if exists i :: 0 <= i < |view| && view[i].payment.Some? {
      var i :| 0 <= i < |view| && view[i].payment.Some?;
      assert view[i] in view;
      var j :| 0 <= j < |table| && table[j] == view[i];
      assert keep(table[j]) && table[j].payment.Some?;
    }
    if exists i :: 0 <= i < |table| && keep(table[i]) && table[i].payment.Some? {
      var i :| 0 <= i < |table| && keep(table[i]) && table[i].payment.Some?;
      assert table[i] in table;
      var j :| 0 <= j < |view| && view[j] == table[i];
      assert view[j].payment.Some?;
    }
  }

  /** The view is no longer than the table, and not empty when some table
      row matches. */
  lemma ViewSize(table: seq<Row>, f: FilterSpec)
    ensures |ApplyFilter(table, f)| <= |table|
    ensures forall i :: 0 <= i < |table| && Matches(f, table[i]) ==> |ApplyFilter(table, f)| > 0
  {
    SubsequenceLength(ApplyFilter(table, f), table);
    forall i | 0 <= i < |table| && Matches(f, table[i])
      ensures |ApplyFilter(table, f)| > 0
    {
      FilterComplete(table, f, i);
    }
  }

  /** Every table row that matches the filter is in the view. */
  lemma FilterComplete(table: seq<Row>, f: FilterSpec, i: nat)
    requires i < |table| && Matches(f, table[i])
    ensures table[i] in ApplyFilter(table, f)
  {
    var view := ApplyFilter(table, f);
    assert table[i] in multiset(table);
    assert table[i] in multiset(view);
  }

  /** Keeping rows that all satisfy a restriction keeps them all. */
  lemma KeepAll(rows: seq<Row>, step: Step)
    requires forall i :: 0 <= i < |rows| ==> Holds(step, rows[i])
    ensures Keep(rows, step) == rows
  {
    var kept := Keep(rows, step);
    assert multiset(kept) == multiset(rows) by {
      forall r
        ensures multiset(kept)[r] == multiset(rows)[r]
      {
        if r in multiset(rows) {
          assert r in rows;
        }
      }
    }
    assert |kept| == |rows| by {
      assert |multiset(kept)| == |multiset(rows)|;
    }
    SubsequenceFull(kept, rows);
  }

  predicate Unrestricted(f: FilterSpec)
  {
    f.store == ALL && f.category == ALL && f.payment == ALL
  }

  /** All selectors `ALL` and no complete date range: the view is the table. */
  lemma NoFilterIdentity(table: seq<Row>, f: FilterSpec)
    requires Unrestricted(f) && (f.start.None? || f.end.None?)
    ensures ApplyFilter(table, f) == table
  {
    assert Steps(f) == [];
  }

  /** All selectors `ALL` and a date range covering every row: the view is
      the table, so every aggregate equals the unfiltered one. */
  lemma FullRangeIdentity(table: seq<Row>, f: FilterSpec)
    requires Unrestricted(f) && f.start.Some? && f.end.Some?
    requires forall i :: 0 <= i < |table| ==> f.start.value <= Day(table[i].time) <= f.end.value
    ensures ApplyFilter(table, f) == table
  {
    var step := Between(f.start.value, f.end.value);
    assert Steps(f) == [step];
    KeepAll(table, step);
    assert Chain(table, Steps(f)) == Chain(Keep(table, step), []);
  }

  /** A selector naming a value no row carries empties the view; this is a
      valid, empty result rather than an error. */
  lemma AbsentValueEmpty(table: seq<Row>, f: FilterSpec)
    requires
      || (f.store != ALL && forall i :: 0 <= i < |table| ==> table[i].store != Some(f.store))
      || (f.category != ALL && forall i :: 0 <= i < |table| ==> table[i].category != Some(f.category))
      || (f.payment != ALL && forall i :: 0 <= i < |table| ==> table[i].payment != Some(f.payment))
    ensures ApplyFilter(table, f) == []
  {
    var view := ApplyFilter(table, f);
    forall r
      ensures multiset(view)[r] == 0
    {
      if Matches(f, r) {
        assert r !in table;
      }
    }
    assert multiset(view) == multiset{};
  }

  /** Selectors that no row satisfies together, such as a store and a
      category with no transaction in common, empty both views. */
  lemma NoSelectedRowEmpty(table: seq<Row>, f: FilterSpec)
    requires forall i :: 0 <= i < |table| ==> !SelectorsMatch(f, table[i])
    ensures ApplyFilter(table, f) == []
    ensures ApplyFilterAsWritten(table, f) == []
  {
    var view := ApplyFilter(table, f);
    var written := ApplyFilterAsWritten(table, f);
    forall r
      ensures multiset(view)[r] == 0 && multiset(written)[r] == 0
    {
      if SelectorsMatch(f, r) {
        assert r !in table;
      }
    }
    assert multiset(view) == multiset{};
    assert multiset(written) == multiset{};
  }

  /** With only one of the two dates given, the date plays no part: the view
      holds exactly the rows matching the three selectors. */
  lemma HalfOpenRangeIgnored(table: seq<Row>, f: FilterSpec)
    requires f.start.None? || f.end.None?
    ensures forall r :: multiset(ApplyFilter(table, f))[r] == if SelectorsMatch(f, r) then multiset(table)[r] else 0
  {
  }

  /** The date test as the callback writes it: the timestamp against
      midnight of each picked day. It never keeps a transaction outside the
      picked days, but keeps of the last day only its first instant. */
  predicate InRangeAsWritten(first: int, last: int, time: int): (b: bool)
    ensures b ==> first <= Day(time) <= last
    ensures b && Day(time) == last ==> time == last * DAY
  {
    DayBounds(time);
    first * DAY <= time <= last * DAY
  }

  /** As written, a transaction one second into the last picked day is
      dropped, although that day is part of the range. */
  lemma EndDayDroppedAsWritten(first: int, last: int)
    requires first <= last
    ensures !InRangeAsWritten(first, last, last * DAY + 1)
    ensures first <= Day(last * DAY + 1) <= last
  {
    DayBounds(last * DAY + 1);
    assert Day(last * DAY + 1) == last;
  }

  /** The day-based test keeps every matching transaction of the picked
      days, from midnight of the first day up to the last second of the
      last day. */
  lemma WholeDaysKept(table: seq<Row>, f: FilterSpec, i: nat)
    requires i < |table| && f.start.Some? && f.end.Some?
    requires SelectorsMatch(f, table[i])
    requires f.start.value * DAY <= table[i].time < f.end.value * DAY + DAY
    ensures table[i] in ApplyFilter(table, f)
  {
    DayBounds(table[i].time);
    assert f.start.value <= Day(table[i].time) <= f.end.value;
    FilterComplete(table, f, i);
  }

  /** On timestamps that carry no time of day, the written test and the
      day-based test used here agree. */
  lemma DayTestAgreesAtMidnight(first: int, last: int, time: int)
    requires time % DAY == 0
    ensures InRangeAsWritten(first, last, time) <==> first <= Day(time) <= last
  {
    var d := Day(time);
    DayBounds(time);
    assert time == d * DAY;
    if first * DAY <= time { assert first <= d; }
    if time <= last * DAY { assert d <= last; }
  }

  /** Keeping by two restrictions that agree on every row keeps the same
      rows. */
  lemma {:induction false} KeepAgree(rows: seq<Row>, s: Step, t: Step)
    requires forall i :: 0 <= i < |rows| ==> (Holds(s, rows[i]) <==> Holds(t, rows[i]))
    ensures Keep(rows, s) == Keep(rows, t)
  {
    if rows != [] {
      var prefix := rows[..|rows| - 1];
      assert forall i :: 0 <= i < |prefix| ==> prefix[i] == rows[i];
      KeepAgree(prefix, s, t);
    }
  }

  /** Chaining restrictions that agree pairwise on every row of the table
      gives the same view. */
  lemma {:induction false} ChainAgree(rows: seq<Row>, ss: seq<Step>, ts: seq<Step>)
    requires |ss| == |ts|
    requires forall r, k :: r in rows && 0 <= k < |ss| ==> (Holds(ss[k], r) <==> Holds(ts[k], r))
    ensures Chain(rows, ss) == Chain(rows, ts)
    decreases |ss|
  {
    if ss != [] {
      assert forall i :: 0 <= i < |rows| ==> rows[i] in rows;
      KeepAgree(rows, ss[0], ts[0]);
      var kept := Keep(rows, ss[0]);
      assert forall r :: r in kept ==> r in rows by {
        forall r | r in kept
          ensures r in rows
        {
          assert r in multiset(kept);
          assert r in multiset(rows);
        }
      }
      ChainAgree(kept, ss[1..], ts[1..]);
    }
  }

  /** On a table whose timestamps carry no time of day, the filter as
      written and the day-based filter give the same view. */
  lemma ApplyFilterAgreesAtMidnight(table: seq<Row>, f: FilterSpec)
    requires forall i :: 0 <= i < |table| ==> table[i].time % DAY == 0
    ensures ApplyFilterAsWritten(table, f) == ApplyFilter(table, f)
  {
    var ss := Steps(f);
    var ts := StepsAsWritten(f);
    var sel := SelectorSteps(f);
    forall r, k | r in table && 0 <= k < |ss|
      ensures Holds(ss[k], r) <==> Holds(ts[k], r)
    {
      if k >= |sel| {
        assert ss[k] == Between(f.start.value, f.end.value);
        assert ts[k] == BetweenAsWritten(f.start.value, f.end.value);
        var i :| 0 <= i < |table| && table[i] == r;
        DayTestAgreesAtMidnight(f.start.value, f.end.value, r.time);
      }
    }
    ChainAgree(table, ts, ss);
  }

  /** On a whole table: with both dates given, a transaction matching the
      selectors one second into the last picked day is missing from the
      view as written and present in the day-based view. */
  lemma EndDayRowDroppedAsWritten(table: seq<Row>, f: FilterSpec, i: nat)
    requires i < |table| && f.start.Some? && f.end.Some? && f.start.value <= f.end.value
    requires SelectorsMatch(f, table[i])
    requires table[i].time == f.end.value * DAY + 1
    ensures table[i] !in ApplyFilterAsWritten(table, f)
    ensures table[i] in ApplyFilter(table, f)
  {
    EndDayDroppedAsWritten(f.start.value, f.end.value);
    assert !MatchesAsWritten(f, table[i]);
    assert table[i] !in multiset(ApplyFilterAsWritten(table, f));
    assert f.start.value * DAY <= f.end.value * DAY;
    WholeDaysKept(table, f, i);
  }
}

=== FILE: grouping.dfy ===
/** The one grouped-aggregation primitive every KPI uses: pandas
    `groupby(key)[col].sum()`, `.size()` and `.agg('count')` are all
    `GroupBy(rows, key, val)` with a different measure `val`.

    Rows whose key is missing are dropped, as pandas `groupby` does by
    default. Groups are listed in order of first appearance. */
module Grouping {
  import opened Wrappers
  import opened Seqs

  /** Measure of `size()` and `value_counts()`: every row counts once. */
  function Unit<T>(x: T): int
  {
    1
  }

  /** Selector keeping every group. */
  function AnyKey<K>(k: K): bool
  {
    true
  }

  /** Some row of `rows` has key `k`. */
  predicate HasKey<T, K(==, !new)>(rows: seq<T>, key: T -> Option<K>, k: K)
  {
    exists i :: 0 <= i < |rows| && key(rows[i]) == Some(k)
  }

  lemma HasKeySnoc<T, K(!new)>(rows: seq<T>, key: T -> Option<K>)
    requires rows != []
    ensures forall k :: HasKey(rows, key, k) <==>
      HasKey(rows[..|rows| - 1], key, k) || key(rows[|rows| - 1]) == Some(k)
  {
    var prefix := rows[..|rows| - 1];
    forall k | HasKey(rows, key, k)
      ensures HasKey(prefix, key, k) || key(rows[|rows| - 1]) == Some(k)
    {
      var i :| 0 <= i < |rows| && key(rows[i]) == Some(k);
      if i < |rows| - 1 {
        assert prefix[i] == rows[i];
      }
    }
    forall k | HasKey(prefix, key, k)
      ensures HasKey(rows, key, k)
    {
      var i :| 0 <= i < |prefix| && key(prefix[i]) == Some(k);
      assert rows[i] == prefix[i];
    }
  }

  /** Reference definition of the group keys: every non-missing key, once,
      in order of first appearance. */
  function GroupKeys<T, K(==, !new)>(rows: seq<T>, key: T -> Option<K>): (ks: seq<K>)
    ensures Distinct(ks)
    ensures forall k :: k in ks <==> HasKey(rows, key, k)
  {
    if rows == [] then []
    else
      var ks' := GroupKeys(rows[..|rows| - 1], key);
      var last := key(rows[|rows| - 1]);
      HasKeySnoc(rows, key);
      if last.Some? && last.value !in ks' then ks' + [last.value] else ks'
  }

  /** Reference definition of a group's value: `val` summed over the rows
      whose key is `k`. */
  function SumWhere<T, K(==, !new)>(rows: seq<T>, key: T -> Option<K>, val: T -> int, k: K): int
  {
    if rows == [] then 0
    else
      var last := rows[|rows| - 1];
      SumWhere(rows[..|rows| - 1], key, val, k) + (if key(last) == Some(k) then val(last) else 0)
  }

  lemma {:induction false} SumWhereAbsent<T, K(!new)>(rows: seq<T>, key: T -> Option<K>, val: T -> int, k: K)
    requires !HasKey(rows, key, k)
    ensures SumWhere(rows, key, val, k) == 0
  {
    if rows != [] {
      HasKeySnoc(rows, key);
      SumWhereAbsent(rows[..|rows| - 1], key, val, k);
    }
  }

  /** Adds `v` to the entry of `k`, appending a new entry `(k, v)` when there
      is none yet: one step of a hash aggregation. */
  function Accumulate<K(==, !new)>(g: seq<(K, int)>, k: K, v: int): seq<(K, int)>
  {
    if g == [] then [(k, v)]
    else if g[0].0 == k then [(k, g[0].1 + v)] + g[1..]
    else [g[0]] + Accumulate(g[1..], k, v)
  }

  /** pandas `groupby(key)[col].agg(...)` for an additive measure `val`: one
      pass over the rows, folding each keyed row into its group. */
  function GroupBy<T, K(==, !new)>(rows: seq<T>, key: T -> Option<K>, val: T -> int): seq<(K, int)>
  {
    if rows == [] then []
    else
      var g := GroupBy(rows[..|rows| - 1], key, val);
      match key(rows[|rows| - 1])
      case None => g
      case Some(k) => Accumulate(g, k, val(rows[|rows| - 1]))
  }

  lemma {:induction false} AccumulateEntries<K(!new)>(g: seq<(K, int)>, k: K, v: int)
    requires Distinct(Keys(g))
    ensures k in Keys(g) ==>
      && |Accumulate(g, k, v)| == |g|
      && forall i :: 0 <= i < |g| ==>
           Accumulate(g, k, v)[i] == (if g[i].0 == k then (k, g[i].1 + v) else g[i])
    ensures k !in Keys(g) ==> Accumulate(g, k, v) == g + [(k, v)]
  {
    if g != [] {
      var tail := g[1..];
      assert Keys(tail) == Keys(g)[1..];
      AccumulateEntries(tail, k, v);
      if g[0].0 == k {
        assert Keys(g)[0] == k;
        forall i | 1 <= i < |g|
          ensures g[i].0 != k
        {
          assert Keys(g)[i] != Keys(g)[0];
        }
      } else {
        assert k in Keys(g) <==> k in Keys(tail);
      }
    }
  }

  /** The fold computes exactly the reference groups: its keys are the
      distinct non-missing keys in order of first appearance, and each
      group holds `val` summed over that key's rows. */
  lemma {:induction false} GroupByMatchesReference<T, K(!new)>(rows: seq<T>, key: T -> Option<K>, val: T -> int)
    ensures Keys(GroupBy(rows, key, val)) == GroupKeys(rows, key)
    ensures var g := GroupBy(rows, key, val);
      forall i :: 0 <= i < |g| ==> g[i].1 == SumWhere(rows, key, val, g[i].0)
  {
    if rows != [] {
      var prefix := rows[..|rows| - 1];
      var last := rows[|rows| - 1];
      GroupByMatchesReference(prefix, key, val);
      var g' := GroupBy(prefix, key, val);
      var g := GroupBy(rows, key, val);
      var ks' := GroupKeys(prefix, key);
      match key(last)
      case None =>
        assert g == g';
        assert forall k :: SumWhere(rows, key, val, k) == SumWhere(prefix, key, val, k);
      case Some(k0) =>
        AccumulateEntries(g', k0, val(last));
        if k0 in ks' {
          assert Keys(g) == Keys(g');
        } else {
          HasKeySnoc(rows, key);
          SumWhereAbsent(prefix, key, val, k0);
          assert Keys(g) == Keys(g') + [k0];
          forall i | 0 <= i < |g|
            ensures g[i].1 == SumWhere(rows, key, val, g[i].0)
          {
            if i < |g'| {
              assert g[i] == g'[i];
              assert Keys(g')[i] in ks';
            }
          }
        }
    }
  }

  /** The groups' keys are distinct, and a key has a group exactly when some
      row carries it. */
  lemma GroupByKeys<T, K(!new)>(rows: seq<T>, key: T -> Option<K>, val: T -> int)
    ensures Distinct(Keys(GroupBy(rows, key, val)))
    ensures forall k :: k in Keys(GroupBy(rows, key, val)) <==> HasKey(rows, key, k)
  {
    GroupByMatchesReference(rows, key, val);
  }

  /** Sum of the group values whose key satisfies `sel`. */
  function SumSelected<K>(g: seq<(K, int)>, sel: K -> bool): int
  {
    if g == [] then 0 else (if sel(g[0].0) then g[0].1 else 0) + SumSelected(g[1..], sel)
  }

  /** Sum of `val` over the rows whose key is present and satisfies `sel`. */
  function SumKeyed<T, K>(rows: seq<T>, key: T -> Option<K>, val: T -> int, sel: K -> bool): int
  {
    if rows == [] then 0
    else
      var last := rows[|rows| - 1];
      SumKeyed(rows[..|rows| - 1], key, val, sel) +
        (if key(last).Some? && sel(key(last).value) then val(last) else 0)
  }

  lemma {:induction false} AccumulateSelected<K(!new)>(g: seq<(K, int)>, k: K, v: int, sel: K -> bool)
    ensures SumSelected(Accumulate(g, k, v), sel) == SumSelected(g, sel) + (if sel(k) then v else 0)
  {
    if g != [] && g[0].0 != k {
      AccumulateSelected(g[1..], k, v, sel);
      assert ([g[0]] + Accumulate(g[1..], k, v))[1..] == Accumulate(g[1..], k, v);
    } else if g != [] {
      assert ([(k, g[0].1 + v)] + g[1..])[1..] == g[1..];
    }
  }

  /** Roll-up: the groups selected by `sel` hold, together, exactly the
      measure of the rows whose key `sel` selects. With `AnyKey` this is
      conservation: the groups add up to the keyed rows' total. */
  lemma {:induction false} GroupByRollUp<T, K(!new)>(rows: seq<T>, key: T -> Option<K>, val: T -> int, sel: K -> bool)
    ensures SumSelected(GroupBy(rows, key, val), sel) == SumKeyed(rows, key, val, sel)
  {
    if rows != [] {
      var prefix := rows[..|rows| - 1];
      var last := rows[|rows| - 1];
      GroupByRollUp(prefix, key, val, sel);
      if key(last).Some? {
        AccumulateSelected(GroupBy(prefix, key, val), key(last).value, val(last), sel);
      }
    }
  }

  /** The total of all groups is the sum of their values. */
  lemma {:induction false} SumValuesIsSelectedAll<K(!new)>(g: seq<(K, int)>)
    ensures Sum(Values(g)) == SumSelected(g, AnyKey)
  {
    if g != [] {
      assert Values(g)[1..] == Values(g[1..]);
      SumValuesIsSelectedAll(g[1..]);
    }
  }

  /** Conservation: the group values add up to `val` summed over every row
      whose key is present. */
  lemma GroupByTotal<T, K(!new)>(rows: seq<T>, key: T -> Option<K>, val: T -> int)
    ensures Sum(Values(GroupBy(rows, key, val))) == SumKeyed(rows, key, val, AnyKey)
  {
    SumValuesIsSelectedAll(GroupBy(rows, key, val));
    GroupByRollUp(rows, key, val, AnyKey);
  }

  lemma {:induction false} AccumulateLowerBound<K(!new)>(g: seq<(K, int)>, k: K, v: int, lo: int)
    requires 0 <= lo <= v
    requires forall i :: 0 <= i < |g| ==> lo <= g[i].1
    ensures forall i :: 0 <= i < |Accumulate(g, k, v)| ==> lo <= Accumulate(g, k, v)[i].1
  {
    if g != [] && g[0].0 != k {
      AccumulateLowerBound(g[1..], k, v, lo);
    }
  }

  /** A measure that is at least `lo >= 0` on every row gives every group a
      value of at least `lo`: sizes are positive, sums of non-negative
      amounts are non-negative. */
  lemma {:induction false} GroupByLowerBound<T, K(!new)>(rows: seq<T>, key: T -> Option<K>, val: T -> int, lo: int)
    requires 0 <= lo
    requires forall i :: 0 <= i < |rows| ==> lo <= val(rows[i])
    ensures forall i :: 0 <= i < |GroupBy(rows, key, val)| ==> lo <= GroupBy(rows, key, val)[i].1
  {
    if rows != [] {
      var prefix := rows[..|rows| - 1];
      assert forall i :: 0 <= i < |prefix| ==> prefix[i] == rows[i];
      GroupByLowerBound(prefix, key, val, lo);
      if key(rows[|rows| - 1]).Some? {
        AccumulateLowerBound(GroupBy(prefix, key, val), key(rows[|rows| - 1]).value, val(rows[|rows| - 1]), lo);
      }
    }
  }

  /** There are no groups exactly when no row carries a key. */
  lemma NoGroupsIffNoKey<T, K(!new)>(rows: seq<T>, key: T -> Option<K>, val: T -> int)
    ensures GroupBy(rows, key, val) == [] <==> forall i :: 0 <= i < |rows| ==> key(rows[i]).None?
  {
    GroupByKeys(rows, key, val);
    var g := GroupBy(rows, key, val);
    if g != [] {
      assert HasKey(rows, key, Keys(g)[0]);
    }
    if exists i :: 0 <= i < |rows| && key(rows[i]).Some? {
      var i :| 0 <= i < |rows| && key(rows[i]).Some?;
      assert HasKey(rows, key, key(rows[i]).value);
      assert key(rows[i]).value in Keys(g);
    }
  }

  /** Counting keyed rows: at most every row, and every row exactly when no
      key is missing. */
  lemma {:induction false} KeyedCount<T, K>(rows: seq<T>, key: T -> Option<K>)
    ensures 0 <= SumKeyed(rows, key, Unit, AnyKey) <= |rows|
    ensures SumKeyed(rows, key, Unit, AnyKey) == |rows| <==> forall i :: 0 <= i < |rows| ==> key(rows[i]).Some?
  {
    if rows != [] {
      var prefix := rows[..|rows| - 1];
      assert forall i :: 0 <= i < |prefix| ==> prefix[i] == rows[i];
      KeyedCount(prefix, key);
    }
  }
}

=== FILE: ranking.dfy ===
/** Rankings over grouped values: pandas `value_counts` (counts in
    decreasing order), `nlargest`, `idxmax`, and `sort_index` on an integer
    key. Ties keep the order of first appearance, which is the order the
    insertion sort preserves; pandas leaves the order of ties unspecified. */
module Ranking {
  import opened Wrappers
  import opened Seqs
  import opened Sorting
  import opened Grouping

  /** Rank ordering entries by decreasing value. */
  function ByValueDesc<K>(p: (K, int)): int
  {
    -p.1
  }

  /** Rank ordering entries by increasing integer key. */
  function ByKey(p: (int, int)): int
  {
    p.0
  }

  function First<K, V>(p: (K, V)): K
  {
    p.0
  }

  lemma {:induction false} InsertKeepsSelected<K>(x: (K, int), s: seq<(K, int)>, rank: ((K, int)) -> int, sel: K -> bool)
    ensures SumSelected(Insert(x, s, rank), sel) == SumSelected(s, sel) + (if sel(x.0) then x.1 else 0)
  {
    if s != [] && rank(s[0]) < rank(x) {
      InsertKeepsSelected(x, s[1..], rank, sel);
      assert ([s[0]] + Insert(x, s[1..], rank))[1..] == Insert(x, s[1..], rank);
    } else if s != [] {
      assert ([x] + s)[1..] == s;
    }
  }

  /** Reordering the groups does not change any roll-up of their values. */
  lemma {:induction false} SortKeepsSelected<K>(g: seq<(K, int)>, rank: ((K, int)) -> int, sel: K -> bool)
    ensures SumSelected(SortBy(g, rank), sel) == SumSelected(g, sel)
  {
    if g != [] {
      SortKeepsSelected(g[1..], rank, sel);
      InsertKeepsSelected(g[0], SortBy(g[1..], rank), rank, sel);
    }
  }

  /** Keys of pairs without repetition, said of the keys or of the pairs'
      first components: the bridge to the generic sorting lemmas. */
  lemma DistinctKeys<K, V>(g: seq<(K, V)>)
    ensures Distinct(Keys(g)) <==> DistinctBy(g, First)
  {
    if Distinct(Keys(g)) {
      forall i, j | 0 <= i < j < |g|
        ensures First(g[i]) != First(g[j])
      {
        assert Keys(g)[i] != Keys(g)[j];
      }
    }
    if DistinctBy(g, First) {
      forall i, j | 0 <= i < j < |g|
        ensures Keys(g)[i] != Keys(g)[j]
      {
        assert First(g[i]) != First(g[j]);
      }
    }
  }

  /** The groups, sorted by any rank, still have one entry per present key,
      each holding that key's measure, and the same total. */
  lemma SortedGroups<T, K(!new)>(rows: seq<T>, key: T -> Option<K>, val: T -> int, rank: ((K, int)) -> int)
    ensures var s := SortBy(GroupBy(rows, key, val), rank);
      && Distinct(Keys(s))
      && (forall k :: k in Keys(s) <==> HasKey(rows, key, k))
      && (forall i :: 0 <= i < |s| ==> s[i].1 == SumWhere(rows, key, val, s[i].0))
      && Sum(Values(s)) == SumKeyed(rows, key, val, AnyKey)
  {
    var g := GroupBy(rows, key, val);
    var s := SortBy(g, rank);
    GroupByMatchesReference(rows, key, val);
    GroupByKeys(rows, key, val);
    DistinctKeys(g);
    SortPreservesDistinct(g, rank, First);
    DistinctKeys(s);
    forall i | 0 <= i < |s|
      ensures s[i] in g
    {
      assert s[i] in multiset(s);
    }
    forall k
      ensures k in Keys(s) <==> k in Keys(g)
    {
      if k in Keys(s) {
        var i :| 0 <= i < |s| && Keys(s)[i] == k;
        var j :| 0 <= j < |g| && g[j] == s[i];
        assert Keys(g)[j] == k;
      }
      if k in Keys(g) {
        var j :| 0 <= j < |g| && Keys(g)[j] == k;
        assert g[j] in multiset(s);
        var i :| 0 <= i < |s| && s[i] == g[j];
        assert Keys(s)[i] == k;
      }
    }
    SortKeepsSelected(g, rank, AnyKey);
    SumValuesIsSelectedAll(s);
    GroupByTotal(rows, key, val);
    SumValuesIsSelectedAll(g);
  }

  /** pandas `value_counts()`: how many rows carry each non-missing value,
      most frequent first. */
  function ValueCounts<T, K(==, !new)>(rows: seq<T>, key: T -> Option<K>): (vc: seq<(K, int)>)
    ensures SortedBy(vc, ByValueDesc)
    ensures Distinct(Keys(vc))
    ensures forall k :: k in Keys(vc) <==> HasKey(rows, key, k)
    ensures forall i :: 0 <= i < |vc| ==> vc[i].1 == SumWhere(rows, key, Unit, vc[i].0)
    ensures forall i :: 0 <= i < |vc| ==> 1 <= vc[i].1
    ensures Sum(Values(vc)) == SumKeyed(rows, key, Unit, AnyKey)
  {
    var g := GroupBy(rows, key, Unit);
    SortedGroups(rows, key, Unit, ByValueDesc);
    GroupByLowerBound(rows, key, Unit, 1);
    var vc := SortBy(g, ByValueDesc);
    assert forall i :: 0 <= i < |vc| ==> vc[i] in multiset(g);
    vc
  }

  /** pandas `nlargest(n)`: the `n` entries of largest value (all of them
      when there are fewer), largest first. The entries are taken from `g`,
      each at most as often as it occurs there, so distinct keys stay
      distinct. */
  function NLargest<K(==)>(g: seq<(K, int)>, n: nat): (t: seq<(K, int)>)
    ensures |t| == if n < |g| then n else |g|
    ensures SortedBy(t, ByValueDesc)
    ensures multiset(t) <= multiset(g)
    ensures Distinct(Keys(g)) ==> Distinct(Keys(t))
    ensures forall i :: 0 <= i < |g| && t != [] && g[i].0 !in Keys(t) ==> g[i].1 <= t[|t| - 1].1
  {
    var s := SortBy(g, ByValueDesc);
    var m := if n < |g| then n else |g|;
    PrefixOfSorted(g, s, m);
    PrefixDistinct(g, m);
    s[..m]
  }

  /** A prefix of the sorted entries is sorted and dominates every entry
      whose key it does not hold. */
  lemma PrefixOfSorted<K>(g: seq<(K, int)>, s: seq<(K, int)>, m: nat)
    requires SortedBy(s, ByValueDesc) && multiset(s) == multiset(g)
    requires m <= |s|
    ensures SortedBy(s[..m], ByValueDesc)
    ensures multiset(s[..m]) <= multiset(g)
    ensures forall i :: 0 <= i < |g| && m > 0 && g[i].0 !in Keys(s[..m]) ==> g[i].1 <= s[m - 1].1
  {
    var t := s[..m];
    assert s == t + s[m..];
    forall i | 0 <= i < |g| && m > 0 && g[i].0 !in Keys(t)
      ensures g[i].1 <= s[m - 1].1
    {
      assert g[i] in multiset(s);
      var j :| 0 <= j < |s| && s[j] == g[i];
      assert forall j' :: 0 <= j' < m ==> Keys(t)[j'] == s[j'].0;
      assert m - 1 == j || ByValueDesc(s[m - 1]) <= ByValueDesc(s[j]);
    }
  }

  /** Every entry of a sub-multiset is an entry of the whole, so its key is
      one of the whole's keys. */
  lemma SubMultisetEntries<K, V>(t: seq<(K, V)>, g: seq<(K, V)>)
    requires multiset(t) <= multiset(g)
    ensures forall i :: 0 <= i < |t| ==> t[i] in g && t[i].0 in Keys(g)
  {
    forall i | 0 <= i < |t|
      ensures t[i] in g && t[i].0 in Keys(g)
    {
      assert t[i] in multiset(t);
      assert t[i] in multiset(g);
      var j :| 0 <= j < |g| && g[j] == t[i];
      assert Keys(g)[j] == t[i].0;
    }
  }

  /** Sorting entries with distinct keys and keeping a prefix keeps the
      keys distinct. */
  lemma PrefixDistinct<K>(g: seq<(K, int)>, m: nat)
    requires m <= |g|
    ensures Distinct(Keys(g)) ==> Distinct(Keys(SortBy(g, ByValueDesc)[..m]))
  {
    if Distinct(Keys(g)) {
      var s := SortBy(g, ByValueDesc);
      DistinctKeys(g);
      SortPreservesDistinct(g, ByValueDesc, First);
      DistinctKeys(s);
      assert forall i :: 0 <= i < m ==> Keys(s[..m])[i] == Keys(s)[i];
    }
  }

  /** pandas `idxmax()` together with `max()`: the first entry of largest
      value; `None` where pandas raises on an empty series. */
  function IdxMax<K>(g: seq<(K, int)>): (r: Option<(K, int)>)
    ensures r.None? <==> g == []
    ensures r.Some? ==> forall i :: 0 <= i < |g| ==> g[i].1 <= r.value.1
    ensures r.Some? ==> exists j :: 0 <= j < |g| && g[j] == r.value && forall i :: 0 <= i < j ==> g[i].1 < g[j].1
  {
    if g == [] then None
    else
      var j := ArgMax(Values(g));
      assert forall i :: 0 <= i < |g| ==> Values(g)[i] == g[i].1;
      Some(g[j])
  }

  /** `value_counts().index[0]`: the most frequent non-missing value, `None`
      where pandas raises on an empty series. No value is more frequent. */
  function ModeOf<T, K(==, !new)>(rows: seq<T>, key: T -> Option<K>): (m: Option<K>)
    ensures m.None? <==> forall i :: 0 <= i < |rows| ==> key(rows[i]).None?
    ensures m.Some? ==> HasKey(rows, key, m.value)
    ensures m.Some? ==> forall k :: SumWhere(rows, key, Unit, k) <= SumWhere(rows, key, Unit, m.value)
  {
    var vc := ValueCounts(rows, key);
    NoValuesIffNoKey(rows, key);
    if vc == [] then None
    else
      ModeIsMaximal(rows, key);
      assert Keys(vc)[0] in Keys(vc);
      Some(vc[0].0)
  }

  lemma NoValuesIffNoKey<T, K(!new)>(rows: seq<T>, key: T -> Option<K>)
    ensures ValueCounts(rows, key) == [] <==> forall i :: 0 <= i < |rows| ==> key(rows[i]).None?
  {
    var vc := ValueCounts(rows, key);
    if vc != [] {
      assert HasKey(rows, key, Keys(vc)[0]);
    }
    if exists i :: 0 <= i < |rows| && key(rows[i]).Some? {
      var i :| 0 <= i < |rows| && key(rows[i]).Some?;
      assert HasKey(rows, key, key(rows[i]).value);
      assert key(rows[i]).value in Keys(vc);
    }
  }

  /** The first value count is at least the count of every value. */
  lemma ModeIsMaximal<T, K(!new)>(rows: seq<T>, key: T -> Option<K>)
    requires ValueCounts(rows, key) != []
    ensures var vc := ValueCounts(rows, key);
      forall k :: SumWhere(rows, key, Unit, k) <= vc[0].1
  {
    var vc := ValueCounts(rows, key);
    forall k
      ensures SumWhere(rows, key, Unit, k) <= vc[0].1
    {
      if HasKey(rows, key, k) {
        assert k in Keys(vc);
        var j :| 0 <= j < |vc| && Keys(vc)[j] == k;
        assert j == 0 || ByValueDesc(vc[0]) <= ByValueDesc(vc[j]);
      } else {
        SumWhereAbsent(rows, key, Unit, k);
      }
    }
  }

  /** Sorted by key with no key repeated: keys strictly ascend. */
  lemma SortedDistinctStrict(s: seq<(int, int)>)
    requires SortedBy(s, ByKey) && Distinct(Keys(s))
    ensures forall i, j :: 0 <= i < j < |s| ==> s[i].0 < s[j].0
  {
    forall i, j | 0 <= i < j < |s|
      ensures s[i].0 < s[j].0
    {
      assert ByKey(s[i]) <= ByKey(s[j]) && Keys(s)[i] != Keys(s)[j];
    }
  }
}

=== FILE: seqs.dfy ===
/** Generic facts about sequences used by every aggregation: sums, extrema,
    counting, distinctness and order-preserving subsequences. */
module Seqs {

  /** Sum of a sequence of integers. */
  function Sum(xs: seq<int>): int
  {
    if xs == [] then 0 else xs[0] + Sum(xs[1..])
  }

  lemma {:induction false} SumSnoc(xs: seq<int>, x: int)
    ensures Sum(xs + [x]) == Sum(xs) + x
  {
    if xs == [] {
      assert xs + [x] == [x];
    } else {
      assert (xs + [x])[1..] == xs[1..] + [x];
      SumSnoc(xs[1..], x);
    }
  }

  /** Every element at least `lo` makes the sum at least `|xs| * lo` (and
      symmetrically for an upper bound). */
  lemma {:induction false} SumBetween(xs: seq<int>, lo: int, hi: int)
    requires forall i :: 0 <= i < |xs| ==> lo <= xs[i] <= hi
    ensures |xs| * lo <= Sum(xs) <= |xs| * hi
  {
    if xs != [] {
      SumBetween(xs[1..], lo, hi);
      assert |xs| * lo == (|xs| - 1) * lo + lo;
      assert |xs| * hi == (|xs| - 1) * hi + hi;
    }
  }

  /** A non-negative element never exceeds the sum of a non-negative sequence. */
  lemma {:induction false} ElementAtMostSum(xs: seq<int>, k: int)
    requires forall i :: 0 <= i < |xs| ==> 0 <= xs[i]
    requires 0 <= k < |xs|
    ensures xs[k] <= Sum(xs)
    ensures 0 <= Sum(xs)
  {
    if |xs| > 1 {
      ElementAtMostSum(xs[1..], if k == 0 then 0 else k - 1);
    }
  }

  predicate Distinct<T(==)>(xs: seq<T>)
  {
    forall i, j :: 0 <= i < j < |xs| ==> xs[i] != xs[j]
  }

  /** First components of a sequence of pairs. */
  function Keys<K, V>(g: seq<(K, V)>): seq<K>
  {
    seq(|g|, i requires 0 <= i < |g| => g[i].0)
  }

  /** Second components of a sequence of pairs. */
  function Values<K, V>(g: seq<(K, V)>): seq<V>
  {
    seq(|g|, i requires 0 <= i < |g| => g[i].1)
  }

  /** Smallest element (pandas `min`). */
  function Min(xs: seq<int>): (m: int)
    requires xs != []
    ensures m in xs
    ensures forall i :: 0 <= i < |xs| ==> m <= xs[i]
  {
    if |xs| == 1 then xs[0]
    else
      var rest := Min(xs[1..]);
      if xs[0] <= rest then xs[0] else rest
  }

  /** Largest element (pandas `max`). */
  function Max(xs: seq<int>): (m: int)
    requires xs != []
    ensures m in xs
    ensures forall i :: 0 <= i < |xs| ==> xs[i] <= m
  {
    if |xs| == 1 then xs[0]
    else
      var rest := Max(xs[1..]);
      if rest <= xs[0] then xs[0] else rest
  }

  /** Position of the first largest element (pandas `idxmax`). */
  function ArgMax(xs: seq<int>): (k: nat)
    requires xs != []
    ensures k < |xs|
    ensures forall i :: 0 <= i < |xs| ==> xs[i] <= xs[k]
    ensures forall i :: 0 <= i < k ==> xs[i] < xs[k]
  {
    if |xs| == 1 then 0
    else
      var k' := ArgMax(xs[..|xs| - 1]);
      if xs[|xs| - 1] > xs[k'] then |xs| - 1 else k'
  }

  /** Number of elements satisfying `p`. */
  function CountIf<T>(xs: seq<T>, p: T -> bool): (c: nat)
    ensures c <= |xs|
    ensures c == 0 <==> forall i :: 0 <= i < |xs| ==> !p(xs[i])
    ensures c == |xs| <==> forall i :: 0 <= i < |xs| ==> p(xs[i])
  {
    if xs == [] then 0
    else
      var rest := CountIf(xs[1..], p);
      assert forall i :: 1 <= i < |xs| ==> xs[i] == xs[1..][i - 1];
      (if p(xs[0]) then 1 else 0) + rest
  }

  /** Counting by a predicate that is the disjoint union of two others. */
  lemma {:induction false} CountIfDisjointUnion<T>(xs: seq<T>, p: T -> bool, q: T -> bool, pq: T -> bool)
    requires forall i :: 0 <= i < |xs| ==> (pq(xs[i]) <==> p(xs[i]) || q(xs[i]))
    requires forall i :: 0 <= i < |xs| ==> !(p(xs[i]) && q(xs[i]))
    ensures CountIf(xs, pq) == CountIf(xs, p) + CountIf(xs, q)
  {
    if xs != [] {
      CountIfDisjointUnion(xs[1..], p, q, pq);
    }
  }

  lemma {:induction false} CountIfAppend<T>(a: seq<T>, b: seq<T>, p: T -> bool)
    ensures CountIf(a + b, p) == CountIf(a, p) + CountIf(b, p)
  {
    if a != [] {
      CountIfAppend(a[1..], b, p);
      assert (a + b)[1..] == a[1..] + b;
    } else {
      assert a + b == b;
    }
  }

  /** The count depends only on the elements, not on their order. */
  lemma {:induction false} CountIfPermutation<T>(xs: seq<T>, ys: seq<T>, p: T -> bool)
    requires multiset(xs) == multiset(ys)
    ensures CountIf(xs, p) == CountIf(ys, p)
    decreases |xs|
  {
    if xs == [] {
      assert |ys| == |multiset(ys)| == 0;
    } else {
      var x := xs[0];
      assert x in multiset(ys) by { assert x in multiset(xs); }
      var j :| 0 <= j < |ys| && ys[j] == x;
      var rest := ys[..j] + ys[j + 1..];
      assert ys == ys[..j] + [x] + ys[j + 1..];
      assert multiset(xs[1..]) == multiset(rest) by {
        assert xs == [x] + xs[1..];
        assert multiset(xs) == multiset{x} + multiset(xs[1..]);
        assert multiset(ys) == multiset(ys[..j]) + multiset{x} + multiset(ys[j + 1..]);
        assert multiset(rest) == multiset(ys[..j]) + multiset(ys[j + 1..]);
        assert multiset(xs[1..]) == multiset(xs) - multiset{x};
        assert multiset(rest) == multiset(ys) - multiset{x};
      }
      CountIfPermutation(xs[1..], rest, p);
      CountIfAppend(ys[..j] + [x], ys[j + 1..], p);
      CountIfAppend(ys[..j], [x], p);
      CountIfAppend(ys[..j], ys[j + 1..], p);
    }
  }

  /** A run of `hi - lo` consecutive elements satisfying `p` adds at least
      that much to the count. */
  lemma {:induction false} CountIfRange<T>(xs: seq<T>, p: T -> bool, lo: nat, hi: nat)
    requires lo <= hi <= |xs|
    requires forall i :: lo <= i < hi ==> p(xs[i])
    ensures CountIf(xs, p) >= hi - lo
  {
    if lo < hi {
      var tail := xs[1..];
      assert forall i :: 0 <= i < |tail| ==> tail[i] == xs[i + 1];
      if lo == 0 {
        assert p(xs[0]);
        CountIfRange(tail, p, 0, hi - 1);
      } else {
        CountIfRange(tail, p, lo - 1, hi - 1);
      }
    }
  }

  /** Order-preserving subsequence: `a` is obtained from `b` by deleting elements. */
  predicate IsSubsequence<T(==)>(a: seq<T>, b: seq<T>)
    decreases |b|
  {
    a == [] ||
    (b != [] &&
     ((a[|a| - 1] == b[|b| - 1] && IsSubsequence(a[..|a| - 1], b[..|b| - 1])) ||
      IsSubsequence(a, b[..|b| - 1])))
  }

  lemma {:induction false} SubsequenceReflexive<T>(a: seq<T>)
    ensures IsSubsequence(a, a)
    decreases |a|
  {
    if a != [] {
      SubsequenceReflexive(a[..|a| - 1]);
    }
  }

  lemma {:induction false} SubsequenceTransitive<T>(a: seq<T>, b: seq<T>, c: seq<T>)
    requires IsSubsequence(a, b) && IsSubsequence(b, c)
    ensures IsSubsequence(a, c)
    decreases |c|
  {
    if a != [] {
      var c' := c[..|c| - 1];
      if IsSubsequence(b, c') {
        SubsequenceTransitive(a, b, c');
      } else {
        var b' := b[..|b| - 1];
        if a[|a| - 1] == b[|b| - 1] && IsSubsequence(a[..|a| - 1], b') {
          SubsequenceTransitive(a[..|a| - 1], b', c');
        } else {
          SubsequenceTransitive(a, b', c');
        }
      }
    }
  }

  /** A subsequence is no longer than the sequence it is drawn from. */
  lemma {:induction false} SubsequenceLength<T>(a: seq<T>, b: seq<T>)
    requires IsSubsequence(a, b)
    ensures |a| <= |b|
    decreases |b|
  {
    if a != [] {
      var b' := b[..|b| - 1];
      if a[|a| - 1] == b[|b| - 1] && IsSubsequence(a[..|a| - 1], b') {
        SubsequenceLength(a[..|a| - 1], b');
      } else {
        SubsequenceLength(a, b');
      }
    }
  }

  /** A subsequence as long as the sequence it is drawn from is that sequence. */
  lemma {:induction false} SubsequenceFull<T>(a: seq<T>, b: seq<T>)
    requires IsSubsequence(a, b) && |a| == |b|
    ensures a == b
    decreases |b|
  {
    if a != [] {
      var b' := b[..|b| - 1];
      if a[|a| - 1] == b[|b| - 1] && IsSubsequence(a[..|a| - 1], b') {
        SubsequenceFull(a[..|a| - 1], b');
        assert a == a[..|a| - 1] + [a[|a| - 1]];
        assert b == b' + [b[|b| - 1]];
      } else {
        SubsequenceLength(a, b');
      }
    }
  }
}

=== FILE: sorting.dfy ===
/** A stable insertion sort by an integer rank. It stands in for the sorts
    pandas performs in `value_counts` (descending count), `nlargest`
    (descending value), `sort_index` (ascending key) and `median`. */
module Sorting {

  /** `s` is ordered by non-decreasing `rank`. */
  predicate SortedBy<T>(s: seq<T>, rank: T -> int)
  {
    forall i, j :: 0 <= i < j < |s| ==> rank(s[i]) <= rank(s[j])
  }

  /** Inserts `x` before the first element whose rank is not smaller, so that
      `x` precedes the elements it ties with. */
  function Insert<T>(x: T, s: seq<T>, rank: T -> int): seq<T>
  {
    if s == [] then [x]
    else if rank(x) <= rank(s[0]) then [x] + s
    else [s[0]] + Insert(x, s[1..], rank)
  }

  lemma {:induction false} InsertElements<T>(x: T, s: seq<T>, rank: T -> int)
    ensures multiset(Insert(x, s, rank)) == multiset(s) + multiset{x}
    ensures |Insert(x, s, rank)| == |s| + 1
  {
    if s != [] && rank(s[0]) < rank(x) {
      InsertElements(x, s[1..], rank);
      assert s == [s[0]] + s[1..];
    }
  }

  lemma {:induction false} InsertSorted<T>(x: T, s: seq<T>, rank: T -> int)
    requires SortedBy(s, rank)
    ensures SortedBy(Insert(x, s, rank), rank)
  {
    if s == [] {
    } else if rank(x) <= rank(s[0]) {
      var r := [x] + s;
      forall i, j | 0 <= i < j < |r|
        ensures rank(r[i]) <= rank(r[j])
      {
        if i == 0 {
          assert rank(s[0]) <= rank(s[j - 1]);
        }
      }
    } else {
      var tail := s[1..];
      var rest := Insert(x, tail, rank);
      InsertSorted(x, tail, rank);
      InsertElements(x, tail, rank);
      var r := [s[0]] + rest;
      forall i, j | 0 <= i < j < |r|
        ensures rank(r[i]) <= rank(r[j])
      {
        if i == 0 {
          assert r[j] in multiset(rest);
          if r[j] != x {
            assert r[j] in multiset(tail);
            var k :| 0 <= k < |tail| && tail[k] == r[j];
            assert s[k + 1] == r[j];
          }
        }
      }
    }
  }

  /** Sorts `s` by non-decreasing `rank`; among equal ranks, earlier elements
      of `s` come first. */
  function SortBy<T>(s: seq<T>, rank: T -> int): (r: seq<T>)
    ensures SortedBy(r, rank)
    ensures multiset(r) == multiset(s)
    ensures |r| == |s|
  {
    if s == [] then []
    else
      var sorted := SortBy(s[1..], rank);
      InsertSorted(s[0], sorted, rank);
      InsertElements(s[0], sorted, rank);
      assert multiset(s) == multiset(s[1..]) + multiset{s[0]} by {
        assert s == [s[0]] + s[1..];
      }
      Insert(s[0], sorted, rank)
  }

  function Identity(x: int): int
  {
    x
  }

  lemma FirstIsLeast(s: seq<int>, x: int)
    requires SortedBy(s, Identity)
    requires x in s
    ensures s[0] <= x
  {
    var j :| 0 <= j < |s| && s[j] == x;
    assert j == 0 || Identity(s[0]) <= Identity(s[j]);
  }

  lemma SortedTail(s: seq<int>)
    requires s != [] && SortedBy(s, Identity)
    ensures SortedBy(s[1..], Identity)
  {
    forall i, j | 0 <= i < j < |s| - 1
      ensures Identity(s[1..][i]) <= Identity(s[1..][j])
    {
      assert s[1..][i] == s[i + 1] && s[1..][j] == s[j + 1];
    }
  }

  lemma MultisetTail<T>(s: seq<T>)
    requires s != []
    ensures multiset(s[1..]) == multiset(s) - multiset{s[0]}
  {
    assert s == [s[0]] + s[1..];
  }

  /** Two ascending integer sequences with the same elements (counted with
      multiplicity) are equal: the sorted arrangement is unique. */
  lemma {:induction false} SortedUnique(s: seq<int>, t: seq<int>)
    requires SortedBy(s, Identity) && SortedBy(t, Identity)
    requires multiset(s) == multiset(t)
    ensures s == t
  {
    assert |s| == |t| by {
      assert |s| == |multiset(s)| == |multiset(t)| == |t|;
    }
    if s != [] {
      assert s[0] == t[0] by {
        assert s[0] in multiset(t) by { assert s[0] in multiset(s); }
        assert t[0] in multiset(s) by { assert t[0] in multiset(t); }
        FirstIsLeast(t, s[0]);
        FirstIsLeast(s, t[0]);
      }
      assert multiset(s[1..]) == multiset(t[1..]) by {
        MultisetTail(s);
        MultisetTail(t);
      }
      assert s[1..] == t[1..] by {
        SortedTail(s);
        SortedTail(t);
        SortedUnique(s[1..], t[1..]);
      }
      assert s == [s[0]] + s[1..];
      assert t == [t[0]] + t[1..];
    }
  }

  /** No two elements of `s` share an `f` value. */
  predicate DistinctBy<T, K(==)>(s: seq<T>, f: T -> K)
  {
    forall i, j :: 0 <= i < j < |s| ==> f(s[i]) != f(s[j])
  }

  /** Sorting keeps a projection injective: no two elements of the result
      share an `f` value when none of the input's did. */
  lemma {:induction false} SortPreservesDistinct<T, K>(s: seq<T>, rank: T -> int, f: T -> K)
    requires DistinctBy(s, f)
    ensures DistinctBy(SortBy(s, rank), f)
  {
    if s != [] {
      var tail := s[1..];
      assert DistinctBy(tail, f) by {
        forall i, j | 0 <= i < j < |tail|
          ensures f(tail[i]) != f(tail[j])
        {
          assert tail[i] == s[i + 1] && tail[j] == s[j + 1];
        }
      }
      SortPreservesDistinct(tail, rank, f);
      var sorted := SortBy(tail, rank);
      forall y | y in sorted
        ensures f(y) != f(s[0])
      {
        assert y in multiset(sorted);
        var k :| 0 <= k < |tail| && tail[k] == y;
        assert s[k + 1] == y;
      }
      InsertPreservesDistinct(s[0], sorted, rank, f);
      assert SortBy(s, rank) == Insert(s[0], sorted, rank);
    }
  }

  lemma {:induction false} InsertPreservesDistinct<T, K>(x: T, s: seq<T>, rank: T -> int, f: T -> K)
    requires DistinctBy(s, f)
    requires forall y :: y in s ==> f(y) != f(x)
    ensures DistinctBy(Insert(x, s, rank), f)
  {
    if s == [] {
    } else if rank(x) <= rank(s[0]) {
      var r := [x] + s;
      forall i, j | 0 <= i < j < |r|
        ensures f(r[i]) != f(r[j])
      {
        if i == 0 {
          assert r[j] in s;
        } else {
          assert r[i] == s[i - 1] && r[j] == s[j - 1];
        }
      }
    } else {
      var tail := s[1..];
      var rest := Insert(x, tail, rank);
      InsertPreservesDistinct(x, tail, rank, f);
      InsertElements(x, tail, rank);
      var r := [s[0]] + rest;
      forall i, j | 0 <= i < j < |r|
        ensures f(r[i]) != f(r[j])
      {
        if i == 0 {
          assert r[j] in multiset(rest);
          if r[j] == x {
            assert s[0] in s;
          } else {
            assert r[j] in multiset(tail);
            var k :| 0 <= k < |tail| && tail[k] == r[j];
            assert s[k + 1] == r[j];
          }
        } else {
          assert r[i] == rest[i - 1] && r[j] == rest[j - 1];
        }
      }
    }
  }
}

=== FILE: stats.dfy ===
/** Descriptive statistics the KPI pages report: pandas `mean`, `min`,
    `max` and `median` over the non-missing values of a column, and
    percentages of a total before presentation rounding. */
module Stats {
  import opened Wrappers
  import opened Seqs
  import opened Sorting

  /** Arithmetic mean; undefined (pandas NaN) when there is no value;
      otherwise the sum over the count, between the minimum and the
      maximum. */
  function Mean(xs: seq<int>): (m: Option<real>)
    ensures m.None? <==> xs == []
    ensures m.Some? ==> m.value == Sum(xs) as real / |xs| as real
    ensures m.Some? ==> Min(xs) as real <= m.value <= Max(xs) as real
  {
    if xs == [] then None
    else
      MeanBounds(xs);
      Some(Sum(xs) as real / |xs| as real)
  }

  /** The mean times the number of values gives back their sum. */
  lemma MeanTimesCount(xs: seq<int>, m: real)
    requires Mean(xs) == Some(m)
    ensures m * |xs| as real == Sum(xs) as real
  {
    TimesRatio(m, Sum(xs) as real, |xs| as real);
  }

  /** A quotient times its divisor gives back the dividend. */
  lemma TimesRatio(q: real, total: real, n: real)
    requires n != 0.0 && q == total / n
    ensures q * n == total
  {
  }

  /** The sum over the length of a non-empty sequence times the length is
      the sum, and lies between the minimum and the maximum. */
  lemma MeanBounds(xs: seq<int>)
    requires xs != []
    ensures Sum(xs) as real / |xs| as real * |xs| as real == Sum(xs) as real
    ensures Min(xs) as real <= Sum(xs) as real / |xs| as real <= Max(xs) as real
  {
    SumBetween(xs, Min(xs), Max(xs));
    RatioBetween(Sum(xs), |xs|, Min(xs), Max(xs));
  }

  /** The mean of a non-empty sequence is its sum over its length. */
  lemma MeanIsRatio(xs: seq<int>)
    requires xs != []
    ensures Mean(xs) == Some(Sum(xs) as real / |xs| as real)
  {
  }

  /** `n * lo <= total <= n * hi` puts `total / n` between `lo` and `hi`. */
  lemma RatioBetween(total: int, n: int, lo: int, hi: int)
    requires n > 0
    requires n * lo <= total <= n * hi
    ensures total as real / n as real * n as real == total as real
    ensures lo as real <= total as real / n as real <= hi as real
  {
    var q := total as real / n as real;
    assert q * n as real == total as real;
    assert (n * lo) as real == n as real * lo as real;
    assert (n * hi) as real == n as real * hi as real;
  }

  /** Middle of the sorted values; the mean of the two middle values when
      their number is even, as pandas computes it. At least half of the
      values lie at or below it and at least half at or above it. */
  function Median(xs: seq<int>): (m: real)
    requires xs != []
    ensures Min(xs) as real <= m <= Max(xs) as real
    ensures 2 * CountIf(xs, AtMost(m)) >= |xs|
    ensures 2 * CountIf(xs, AtLeast(m)) >= |xs|
  {
    var s := SortBy(xs, Identity);
    var n := |s|;
    assert s[n / 2] in multiset(xs);
    assert n % 2 == 0 ==> s[n / 2 - 1] in multiset(xs);
    MiddleSplits(s);
    CountIfPermutation(xs, s, AtMost(Middle(s)));
    CountIfPermutation(xs, s, AtLeast(Middle(s)));
    Middle(s)
  }

  /** Selects the values at or below `m`. */
  function AtMost(m: real): int -> bool
  {
    x => x as real <= m
  }

  /** Selects the values at or above `m`. */
  function AtLeast(m: real): int -> bool
  {
    x => m <= x as real
  }

  /** Middle element of a non-empty sequence, or the mean of its two middle
      elements when its length is even. */
  function Middle(s: seq<int>): real
    requires s != []
  {
    var n := |s|;
    if n % 2 == 1 then s[n / 2] as real
    else (s[n / 2 - 1] + s[n / 2]) as real / 2.0
  }

  /** In ascending order, the first half lies at or below the middle and the
      last half at or above it. */
  lemma MiddleSplits(s: seq<int>)
    requires s != [] && SortedBy(s, Identity)
    ensures 2 * CountIf(s, AtMost(Middle(s))) >= |s|
    ensures 2 * CountIf(s, AtLeast(Middle(s))) >= |s|
  {
    var n := |s|;
    var m := Middle(s);
    var h := (n + 1) / 2;
    assert forall i :: 0 <= i < h ==> AtMost(m)(s[i]) by {
      forall i | 0 <= i < h
        ensures s[i] as real <= m
      {
        if n % 2 == 1 {
          assert i == n / 2 || Identity(s[i]) <= Identity(s[n / 2]);
        } else {
          assert i == n / 2 - 1 || Identity(s[i]) <= Identity(s[n / 2 - 1]);
          assert Identity(s[n / 2 - 1]) <= Identity(s[n / 2]);
        }
      }
    }
    assert forall i :: n - h <= i < n ==> AtLeast(m)(s[i]) by {
      forall i | n - h <= i < n
        ensures m <= s[i] as real
      {
        if n % 2 == 1 {
          assert i == n / 2 || Identity(s[n / 2]) <= Identity(s[i]);
        } else {
          assert i == n / 2 || Identity(s[n / 2]) <= Identity(s[i]);
          assert Identity(s[n / 2 - 1]) <= Identity(s[n / 2]);
        }
      }
    }
    CountIfRange(s, AtMost(m), 0, h);
    CountIfRange(s, AtLeast(m), n - h, n);
  }

  /** The median depends only on the values, not on the order of the rows. */
  lemma MedianIgnoresOrder(xs: seq<int>, ys: seq<int>)
    requires xs != []
    requires multiset(xs) == multiset(ys)
    ensures ys != []
    ensures Median(xs) == Median(ys)
  {
    assert |ys| == |multiset(ys)| == |multiset(xs)| == |xs|;
    var s, t := SortBy(xs, Identity), SortBy(ys, Identity);
    SortedUnique(s, t);
    assert Median(xs) == Middle(s);
    assert Median(ys) == Middle(t);
  }

  datatype Summary = Summary(mean: real, min: int, max: int, median: real)

  /** Mean, minimum, maximum and median of the values, or `None` when there
      are none (pandas returns NaN for each). */
  function Describe(xs: seq<int>): (s: Option<Summary>)
    ensures s.None? <==> xs == []
    ensures s.Some? ==> s.value.min in xs && s.value.max in xs
    ensures s.Some? ==> forall i :: 0 <= i < |xs| ==> s.value.min <= xs[i] <= s.value.max
    ensures s.Some? ==> s.value.min as real <= s.value.median <= s.value.max as real
    ensures s.Some? ==> s.value.min as real <= s.value.mean <= s.value.max as real
    ensures s.Some? ==> Mean(xs) == Some(s.value.mean) && Median(xs) == s.value.median
  {
    if xs == [] then None
    else
      var mean := Mean(xs);
      assert mean.Some?;
      Some(Summary(mean.value, Min(xs), Max(xs), Median(xs)))
  }

  /** `part / whole * 100`, before the dashboard rounds it for display. */
  function Percent(part: int, whole: int): real
    requires whole != 0
  {
    part as real / whole as real * 100.0
  }

  lemma PercentAdditive(a: int, b: int, whole: int)
    requires whole != 0
    ensures Percent(a + b, whole) == Percent(a, whole) + Percent(b, whole)
  {
    var w := whole as real;
    assert (a + b) as real / w == a as real / w + b as real / w;
  }

  /** A share of a positive whole it does not exceed lies in [0, 100], and is
      positive exactly when the part is. */
  lemma PercentBounds(part: int, whole: int)
    requires 0 <= part <= whole && whole > 0
    ensures 0.0 <= Percent(part, whole) <= 100.0
    ensures 0.0 < Percent(part, whole) <==> 0 < part
    ensures Percent(part, whole) == 100.0 <==> part == whole
  {
    var q := part as real / whole as real;
    assert q * whole as real == part as real;
  }

  /** Any non-zero whole is 100 percent of itself. */
  lemma PercentSelf(whole: int)
    requires whole != 0
    ensures Percent(whole, whole) == 100.0
  {
    assert whole as real / whole as real == 1.0;
  }

  /** Each entry's value as a percentage of `whole`. */
  function Shares<K>(g: seq<(K, int)>, whole: int): seq<(K, real)>
    requires whole != 0
  {
    seq(|g|, i requires 0 <= i < |g| => (g[i].0, Percent(g[i].1, whole)))
  }

  /** Every share of a breakdown of positive counts not above `whole` lies
      in (0, 100]. */
  lemma ShareBounds<K>(g: seq<(K, int)>, whole: int)
    requires whole > 0
    requires forall i :: 0 <= i < |g| ==> 1 <= g[i].1 <= whole
    ensures forall i :: 0 <= i < |g| ==> 0.0 < Shares(g, whole)[i].1 <= 100.0
  {
    forall i | 0 <= i < |g|
      ensures 0.0 < Shares(g, whole)[i].1 <= 100.0
    {
      PercentBounds(g[i].1, whole);
    }
  }

  function SumReal(xs: seq<real>): real
  {
    if xs == [] then 0.0 else xs[0] + SumReal(xs[1..])
  }

  /** The shares of a breakdown add up to the share of its total; in
      particular they add up to 100 when `whole` is that total. */
  lemma {:induction false} SharesTotal<K>(g: seq<(K, int)>, whole: int)
    requires whole != 0
    ensures SumReal(Values(Shares(g, whole))) == Percent(Sum(Values(g)), whole)
  {
    if g != [] {
      SharesTotal(g[1..], whole);
      assert Values(Shares(g, whole))[1..] == Values(Shares(g[1..], whole));
      assert Values(g)[1..] == Values(g[1..]);
      PercentAdditive(g[0].1, Sum(Values(g[1..])), whole);
    }
  }

  /** A breakdown of positive counts as shares of its own total: one share
      per entry, with the entry's key, each in (0, 100], together 100. */
  lemma CountShares<K>(g: seq<(K, int)>)
    requires g != []
    requires forall i :: 0 <= i < |g| ==> 1 <= g[i].1
    ensures Sum(Values(g)) > 0
    ensures Keys(Shares(g, Sum(Values(g)))) == Keys(g)
    ensures forall i :: 0 <= i < |g| ==> Shares(g, Sum(Values(g)))[i].1 == Percent(g[i].1, Sum(Values(g)))
    ensures forall i :: 0 <= i < |g| ==> 0.0 < Shares(g, Sum(Values(g)))[i].1 <= 100.0
    ensures SumReal(Values(Shares(g, Sum(Values(g))))) == 100.0
  {
    var whole := Sum(Values(g));
    assert forall i :: 0 <= i < |g| ==> g[i].1 <= whole by {
      forall i | 0 <= i < |g|
        ensures g[i].1 <= whole
      {
        assert Values(g)[i] == g[i].1;
        ElementAtMostSum(Values(g), i);
      }
    }
    SharesTotal(g, whole);
    PercentSelf(whole);
    ShareBounds(g, whole);
  }
}

=== FILE: table.dfy ===
/** The transaction table both scripts load: one immutable record per
    spreadsheet row, with pandas' missing cells (NaN) as `None`. */
module Table {
  import opened Wrappers
  import opened Seqs
  import opened Grouping

  /** Seconds in a day: a timestamp's calendar day is its floor quotient. */
  const DAY: int := 86400

  /** One transaction. Amounts are in cents; `time` is the parsed
      `Date_Transaction` in seconds since the epoch. */
  datatype Row = Row(
    client: Option<string>,
    category: Option<string>,
    payment: Option<string>,
    store: Option<string>,
    amount: Option<int>,
    quantity: Option<int>,
    satisfaction: Option<int>,
    time: int)

  /** Calendar day of a timestamp (pandas `.dt.date`). */
  function Day(time: int): int
  {
    time / DAY
  }

  /** A timestamp lies within its day: from its midnight up to, and not
      including, the next midnight. */
  lemma DayBounds(time: int)
    ensures Day(time) * DAY <= time < Day(time) * DAY + DAY
  {
  }

  // Group keys: the columns the scripts group or count by.

  function ClientKey(r: Row): Option<string> { r.client }
  function CategoryKey(r: Row): Option<string> { r.category }
  function PaymentKey(r: Row): Option<string> { r.payment }
  function StoreKey(r: Row): Option<string> { r.store }
  function SatisfactionKey(r: Row): Option<int> { r.satisfaction }
  function DayKey(r: Row): Option<int> { Some(Day(r.time)) }

  /** Key of `groupby(['Magasin', 'Categorie_Produit'])`: missing when either
      part is, since pandas drops a row with any missing key. */
  function StoreCategoryKey(r: Row): Option<(string, string)>
  {
    if r.store.Some? && r.category.Some? then Some((r.store.value, r.category.value)) else None
  }

  // Column cells, and the additive measures pandas aggregates over them.

  function AmountCell(r: Row): Option<int> { r.amount }

  /** Contribution to a `sum`: a missing cell adds nothing. */
  function AmountOr0(r: Row): int { r.amount.GetOr(0) }
  function QuantityOr0(r: Row): int { r.quantity.GetOr(0) }
  function SatisfactionOr0(r: Row): int { r.satisfaction.GetOr(0) }

  /** Contribution to a `count`: only present cells count. */
  function HasAmount(r: Row): int { if r.amount.Some? then 1 else 0 }
  function HasSatisfaction(r: Row): int { if r.satisfaction.Some? then 1 else 0 }

  /** The non-missing cells of a column, in row order (pandas `dropna`). */
  function Present<T>(rows: seq<T>, cell: T -> Option<int>): (xs: seq<int>)
    ensures |xs| <= |rows|
    ensures |xs| == 0 <==> forall i :: 0 <= i < |rows| ==> cell(rows[i]).None?
  {
    if rows == [] then []
    else
      var prefix := rows[..|rows| - 1];
      var rest := Present(prefix, cell);
      assert forall i :: 0 <= i < |prefix| ==> prefix[i] == rows[i];
      match cell(rows[|rows| - 1])
      case None => rest
      case Some(x) => rest + [x]
  }

  /** Sum of an additive measure over every row. */
  function Total<T>(rows: seq<T>, val: T -> int): int
  {
    if rows == [] then 0 else Total(rows[..|rows| - 1], val) + val(rows[|rows| - 1])
  }

  /** Summing the present cells is summing the measure that counts a missing
      cell as 0; counting them is summing the measure that counts a present
      cell as 1. */
  lemma {:induction false} PresentTotals<T>(rows: seq<T>, cell: T -> Option<int>, orZero: T -> int, has: T -> int)
    requires forall i :: 0 <= i < |rows| ==> orZero(rows[i]) == cell(rows[i]).GetOr(0)
    requires forall i :: 0 <= i < |rows| ==> has(rows[i]) == if cell(rows[i]).Some? then 1 else 0
    ensures Sum(Present(rows, cell)) == Total(rows, orZero)
    ensures |Present(rows, cell)| == Total(rows, has)
  {
    if rows != [] {
      var prefix := rows[..|rows| - 1];
      assert forall i :: 0 <= i < |prefix| ==> prefix[i] == rows[i];
      PresentTotals(prefix, cell, orZero, has);
      var last := cell(rows[|rows| - 1]);
      if last.Some? {
        SumSnoc(Present(prefix, cell), last.value);
      }
    }
  }

  /** A present cell of the row at `i` shows up among the present cells. */
  lemma {:induction false} PresentMember<T>(rows: seq<T>, cell: T -> Option<int>, i: nat)
    requires i < |rows| && cell(rows[i]).Some?
    ensures cell(rows[i]).value in Present(rows, cell)
  {
    var prefix := rows[..|rows| - 1];
    if i < |rows| - 1 {
      assert prefix[i] == rows[i];
      PresentMember(prefix, cell, i);
    }
  }

  /** When every row has its key, the keyed sum of a measure is its total. */
  lemma {:induction false} KeyedTotal<T, K>(rows: seq<T>, key: T -> Option<K>, val: T -> int)
    ensures (forall i :: 0 <= i < |rows| ==> key(rows[i]).Some?) ==>
      SumKeyed(rows, key, val, AnyKey) == Total(rows, val)
  {
    if rows != [] {
      var prefix := rows[..|rows| - 1];
      assert forall i :: 0 <= i < |prefix| ==> prefix[i] == rows[i];
      KeyedTotal(prefix, key, val);
    }
  }

  /** Counting the rows that carry a key is counting that column's present
      cells. */
  lemma {:induction false} KeyedCountPresent<T>(rows: seq<T>, key: T -> Option<int>)
    ensures SumKeyed(rows, key, Unit, AnyKey) == |Present(rows, key)|
  {
    if rows != [] {
      var prefix := rows[..|rows| - 1];
      assert forall i :: 0 <= i < |prefix| ==> prefix[i] == rows[i];
      KeyedCountPresent(prefix, key);
    }
  }
}

=== FILE: wrappers.dfy ===
/** Optional values: `None` stands for a cell pandas reads as missing (NaN),
    or for a statistic the dashboard cannot produce on an empty input. */
module Wrappers {

  datatype Option<+T> = None | Some(value: T) {

    /** The value, or `default` when missing (pandas `fillna`). */
    function GetOr(default: T): T
    {
      match this
      case Some(v) => v
      case None => default
    }
  }
}
